=== FILE: README.md ===
# StudyRAG core in Dafny

A model of the core of a small retrieval-augmented study assistant, with proofs of its properties. The model covers three parts:

- **Ingestion** (`pdf_loader.py`). Every `.pdf` file of a directory is split into chunks and embedded in batches of 100. Each chunk becomes a vector record with the id `<basename>-chunk-<position>`, and the records are upserted into the Pinecone index `studyrag`. That index is dropped and recreated, with dimension 1536 and the cosine metric, at the start of every run.
- **Question answering** (`rag_query.py`). The query takes the three most similar chunks and joins their texts with newlines. It wraps them in one of two instruction templates, depending on `use_gpt_knowledge`, and asks the chat model. The fixed fallback sentence is returned when nothing is retrieved. Every failure becomes an answer string that begins with `An error occurred: `.
- **Progress tracking** (`user_profiles.py`). Each user has an interaction log and a statistics record. The statistics hold the total question count, per-topic counts and timestamps, and an understanding score. The score is 70 points for volume, full at 100 questions, plus 30 points for diversity, full at 5 topics. `log_interaction` rewrites the statistics on every question.

The modules are as follows:

- `Common`: `Option`, `Result`, minima.
- `Text`: decimal rendering of naturals, as in Python's `str(n)`, and its inverse. Also `str.endswith`.
- `Paths`: POSIX `os.path.basename` and two-argument `os.path.join`.
- `UserProfiles`, `PdfLoader` and `RagQuery`: one per source file.

Calls into services the model cannot see become parameters of the model. These are the PDF loader and text splitter, the embedding services, Pinecone, the chat model and the clock. Where the code catches or propagates a service's exception, the parameter is given either the service's answer or the exception's message. The clock always succeeds in the model. The order in which the vector store ranks chunks is an opaque input, while the search itself may fail.

Three behaviours of the code are worth stating plainly, since a design for such a system might promise otherwise:

- **The query answers with one plain string.** There are no separate answer, context and error fields. `RagQuery.AnswerIsAmbiguous` shows what this costs: a model reply can be the same string as the fallback sentence.
- **Ingestion can raise.** `load_pdfs_to_chroma` reports a failed client or index setup as `False`. Three later steps are outside any `try`: connecting to the index (line 128), building the splitter and the embedding client (lines 131-132), and listing the directory (line 135). An exception from any of them escapes; the model gives it the `Err` outcome. Likewise an exception from the sentence encoder in `log_interaction` (user_profiles.py line 62) escapes before either profile file is written.
- **The index is not polled for readiness.** The code sleeps for a fixed five seconds after recreating it, which is outside the model.

## Model

| member | source | states |
|---|---|---|
| UserProfiles.CapAtOne | user_profiles.py:91-92 | `min(x, 1.0)`: the result is at most one and at most x, and is one of the two |
| UserProfiles.UnderstandingScore | user_profiles.py:84-94 | the score always lies in [0, 100], and it is exactly 100 when there are at least 100 questions and at least 5 topics, and only then |
| UserProfiles.ScoreMonotone | user_profiles.py:87-94 | more questions or more topics never give a lower score |
| UserProfiles.ScoreExample | user_profiles.py:91-94 | 50 questions over 3 topics score 53 |
| UserProfiles.InitialStats | user_profiles.py:25-31 | a new user's statistics have no questions and no topics, a score of 0, last activity at the given clock reading, and already satisfy the invariant: the total is the sum over topics and the score matches the formula |
| UserProfiles.OpenProfile | user_profiles.py:18-31 | an existing log or statistics file is kept as stored; a missing log starts empty; missing statistics start fresh, with score 0 and last activity at the clock reading, and satisfy the invariant |
| UserProfiles.TopicProgress | user_profiles.py:100-106 | a known topic gives its stored entry; an unseen topic gives zero questions and no last interaction |
| UserProfiles.RecordQuestion | user_profiles.py:69-81 | the total rises by one, the topic is added if new, the topic's count rises by one and its last interaction is set, every other topic is untouched, and the score is recomputed from the new totals |
| UserProfiles.LogInteraction | user_profiles.py:49-82 | the old log is kept as a prefix, one entry is appended carrying the question, answer, context, topic, embedding and entry time, and the statistics are updated for the topic |
| UserProfiles.LogInteractionCall | user_profiles.py:49-82 | a failing encoder makes the call raise with the encoder's message; otherwise the user is kept, the old log is kept as a prefix, exactly the six-field entry with the encoded question is appended, and the statistics are those of one recorded question |
| UserProfiles.LogInteractionCallConsistent | user_profiles.py:49-82 | whether or not the encoder raises, the stored profile stays consistent with its log, and a raising call leaves it exactly as it was |
| UserProfiles.SumAskedBump | user_profiles.py:72-77 | raising one topic's count by one raises the sum over all topics by exactly one |
| UserProfiles.RecordQuestionConserves | user_profiles.py:70-77 | after a question the total still equals the sum of the per-topic counts |
| UserProfiles.RecordQuestionValid | user_profiles.py:69-94 | recording a question preserves the statistics invariant |
| UserProfiles.ScoreNeverDecreases | user_profiles.py:69-94 | logging a question never lowers the understanding score |
| UserProfiles.TopicProgressAfterLog | user_profiles.py:72-78 | after a question on a topic, `get_topic_progress` for that topic reports exactly one more question than before, whether or not the topic was seen |
| UserProfiles.CountTopic | user_profiles.py:100-106 | the number of log entries on a topic, at most the log length; the reference that `UserProfiles.TopicProgressCountsLog` compares `get_topic_progress` against |
| UserProfiles.FreshProfileConsistent | user_profiles.py:18-31 | a freshly created profile's statistics agree with its empty log |
| UserProfiles.CountTopicAppend | user_profiles.py:66 | appending an entry adds one to its topic's count in the log and changes no other topic's count |
| UserProfiles.RecordQuestionMatchesLog | user_profiles.py:66-78 | if the per-topic statistics matched the log before, they match it after the entry is appended and recorded: the topics present are exactly those with entries, and each count is the number of entries on that topic |
| UserProfiles.LogInteractionConsistent | user_profiles.py:49-82 | one logged interaction keeps the statistics consistent with the log: the total equals the number of entries, the per-topic counts match the log, and the score matches the formula |
| UserProfiles.TopicProgressCountsLog | user_profiles.py:100-106 | for a consistent profile, the progress reported for a topic counts that topic's entries in the log |
| UserProfiles.Replay | user_profiles.py:49-82 | a run of questions grows the log and the total by the number of questions and keeps the user |
| UserProfiles.ReplayConsistent | user_profiles.py:49-94 | any run of questions from a consistent profile leaves it consistent, with the score in [0, 100] |
| UserProfiles.ReplayScoreMonotone | user_profiles.py:84-94 | over any run of questions the score never goes down |
| PdfLoader.BatchesFrom | pdf_loader.py:76-77 | the slices `texts[i:i + 100]` for `i` in `range(start, n, 100)`; what they are is stated by `PdfLoader.BatchesFromAt`, `PdfLoader.BatchesFromCount` and `PdfLoader.BatchesFromConcat` |
| PdfLoader.Batches | pdf_loader.py:76-77 | the batches from chunk 0; their partition of the chunks is stated by `PdfLoader.BatchesPartition` |
| PdfLoader.BatchesFromConcat | pdf_loader.py:76-77 | the slices taken from position i on, put back together, are exactly the chunks from i on |
| PdfLoader.BatchesFromCount | pdf_loader.py:76-78 | the number of batches is the ceiling of the remaining chunk count divided by 100, as in the progress message |
| PdfLoader.BatchesFromAt | pdf_loader.py:76-77 | batch b is the slice that starts at chunk i + 100b and holds at most 100 chunks |
| PdfLoader.BatchesPartition | pdf_loader.py:74-78 | the batches cover the chunks exactly once and in order; there are ceiling(n/100) of them, each non-empty and of at most 100 chunks |
| PdfLoader.VectorId | pdf_loader.py:87 | `<basename>-chunk-<position>`; that it determines both parts is stated by `PdfLoader.VectorIdInjective` |
| PdfLoader.PageOf | pdf_loader.py:92 | the chunk's page, 0 when absent; `PdfLoader.MakeVector` states where it lands |
| PdfLoader.VectorIdInjective | pdf_loader.py:87 | two ids are equal exactly when both the file basename and the chunk position are equal |
| PdfLoader.MakeVector | pdf_loader.py:86-94 | a record carries the id for its file and position, the embedding it was given as its values, and metadata holding the chunk text, the basename and the page, which defaults to 0 |
| PdfLoader.BuildVectors | pdf_loader.py:85-95 | the comprehension pairs chunks with embeddings up to the shorter list, as `zip` does, numbering each chunk from the batch's start position |
| PdfLoader.Contents | pdf_loader.py:81 | the texts sent for embedding are the batch's chunk texts, in order |
| PdfLoader.UpsertsFrom | pdf_loader.py:76-99 | the batch loop from chunk i; its behaviour is stated by `PdfLoader.UpsertsFromStops` and `PdfLoader.UpsertsFromAt` |
| PdfLoader.ProcessPdf | pdf_loader.py:59-104 | `process_pdf`; its behaviour is stated by `PdfLoader.ProcessPdfBatches` |
| PdfLoader.UpsertsFromStops | pdf_loader.py:76-99 | the loop upserts a prefix of the batches; it finishes exactly when every batch was upserted, and otherwise the next batch's embedding call failed |
| PdfLoader.UpsertsFromAt | pdf_loader.py:76-99 | each upsert holds the records built from its own batch and that batch's embeddings |
| PdfLoader.ProcessPdfBatches | pdf_loader.py:59-104 | a file that fails to load or split upserts nothing; otherwise the batches are embedded and upserted in order until the first failing embedding call |
| PdfLoader.Positions | pdf_loader.py:87 | the consecutive chunk positions from a start |
| PdfLoader.RecordsOfAppend | pdf_loader.py:76-99 | records of chunks, followed by records of chunks, are records of the joined position lists |
| PdfLoader.BatchRecords | pdf_loader.py:85-95 | the records built for one batch are the records of chunks i, i+1, and so on |
| PdfLoader.ChunkIndicesFromOrdered | pdf_loader.py:76-95 | the chunk positions behind the upserted records are in range and strictly increasing, so no chunk is upserted twice within a file |
| PdfLoader.UpsertedVectorsFrom | pdf_loader.py:76-99 | every upserted record is the record of the chunk at its position: right id, text, source and page |
| PdfLoader.FileVectorsWellFormed | pdf_loader.py:85-99 | within one file the ids are pairwise distinct, and every record's source is the file's basename, with an id that follows from it |
| PdfLoader.ReliableIndicesFrom | pdf_loader.py:76-95 | with an embedding service that always answers, every position from the start on is visited, in order |
| PdfLoader.ReliableFinishes | pdf_loader.py:76-102 | with an embedding service that always answers, the loop reaches the end |
| PdfLoader.ReliableEmbedderCoversEveryChunk | pdf_loader.py:59-102 | with an embedding service that always answers, record k is the record of chunk k for every chunk |
| PdfLoader.BatchStartOf | pdf_loader.py:76-77 | the start of the batch that holds chunk k: at or before k, less than 100 before it, and not before the loop's start |
| PdfLoader.BatchStartOfDiv | pdf_loader.py:76-77 | that start is `i + (k - i) // 100 * 100` |
| PdfLoader.ReliableStep | pdf_loader.py:76-99 | with an embedding service that always answers, one loop step upserts a record for every chunk of its batch, then the rest of the loop follows |
| PdfLoader.BatchValue | pdf_loader.py:82-95 | the record built for chunk k of a batch carries the embedding at offset k - i of that batch's answer |
| PdfLoader.ReliableValueAt | pdf_loader.py:76-99 | with an embedding service that always answers, the record of chunk k carries the embedding that its batch's call returned at the chunk's offset in the batch |
| PdfLoader.ReliableEmbedderValues | pdf_loader.py:76-99 | with an embedding service that always answers, record k of a file carries embedding `k % 100` of the answer for the batch `texts[k // 100 * 100 : k // 100 * 100 + 100]` |
| PdfLoader.CreateOrRecreateIndex | pdf_loader.py:28-57 | the call succeeds exactly when no call raises, or when only deletion would raise and the index did not exist; on success `studyrag` exists, empty, with the fixed configuration; on failure any surviving `studyrag` is the old one: a failed listing, or a failed deletion of an existing index, leaves the account unchanged, while a failed creation after the deletion leaves no `studyrag` at all; other indexes are never touched |
| PdfLoader.RecreateForgetsOldIndex | pdf_loader.py:35-52 | after a successful recreation the account looks the same whether or not the index existed before, and whatever it held |
| PdfLoader.UpsertAll | pdf_loader.py:99 | `index.upsert`, each record replacing any earlier one with its id; stated by `PdfLoader.UpsertAllKeys` and `PdfLoader.UpsertAllStores` |
| PdfLoader.UpsertAllKeys | pdf_loader.py:99 | after an upsert the index holds the old ids plus the new ones, and old records whose id is not re-sent are unchanged |
| PdfLoader.DistinctIdsTail | pdf_loader.py:99 | in an id-distinct list, the first id does not recur and the rest is id-distinct |
| PdfLoader.UpsertAllStores | pdf_loader.py:99 | when the ids sent are pairwise distinct, every record sent is stored unaltered under its id |
| PdfLoader.UpsertAllAppend | pdf_loader.py:99 | upserting two lists one after the other is upserting their concatenation |
| PdfLoader.UpsertBatches | pdf_loader.py:76-99 | one `index.upsert` per batch, in order; no id already in the index is lost, and `PdfLoader.UpsertBatchesFlat` states the combined effect |
| PdfLoader.UpsertBatchesFlat | pdf_loader.py:76-99 | upserting batch by batch has the effect of one upsert of all batches' records |
| PdfLoader.PdfNames | pdf_loader.py:135 | a name is kept exactly when it is in the listing and ends in `.pdf` |
| PdfLoader.PdfFiles | pdf_loader.py:135 | one path per kept name; `PdfLoader.PdfFilesInDirectory` states that each is the directory joined with a kept name, and `PdfLoader.PdfFilesFromListing` that its basename is that name |
| PdfLoader.PdfFilesInDirectory | pdf_loader.py:135 | path q is the directory joined with the q-th kept name, which is a listed name ending in `.pdf` |
| PdfLoader.PdfNamesMultiplicity | pdf_loader.py:135 | each `.pdf` name is kept as often as the listing holds it, and every other name is dropped |
| PdfLoader.PdfNamesAppend | pdf_loader.py:135 | filtering commutes with concatenation, so listing order is kept |
| PdfLoader.PdfFilesFromListing | pdf_loader.py:135 | for a listing without repeats or slashes, each `.pdf` name is kept once, and each joined path has the name as its basename |
| PdfLoader.PdfNamesDistinct | pdf_loader.py:135 | filtering a repeat-free listing keeps it repeat-free |
| PdfLoader.AllVectors | pdf_loader.py:138-139 | every record the files produce, file after file; stated by `PdfLoader.AllVectorsSources` and `PdfLoader.AllVectorsDistinct` |
| PdfLoader.IngestFiles | pdf_loader.py:138-139 | the file loop applied to the index; stated by `PdfLoader.IngestFilesFlat` |
| PdfLoader.IngestFilesFlat | pdf_loader.py:138-139 | processing the files one by one has the effect of one upsert of all their records, in file order |
| PdfLoader.Basenames | pdf_loader.py:87-91 | the basename of each file path, in order |
| PdfLoader.DistinctNamesTail | pdf_loader.py:135 | in a repeat-free list the head does not recur and the tail is repeat-free |
| PdfLoader.DifferentSourcesDifferentIds | pdf_loader.py:87-91 | records from different files never share an id |
| PdfLoader.DistinctIdsAppend | pdf_loader.py:138-139 | one file's id-distinct records, followed by id-distinct records from other files, are id-distinct |
| PdfLoader.BasenamesTail | pdf_loader.py:138 | the basenames of a file list are the head's basename followed by the tail's |
| PdfLoader.SourcesAppend | pdf_loader.py:138-139 | joining two record lists keeps every record's source among the files' basenames |
| PdfLoader.AllVectorsSources | pdf_loader.py:135-139 | every record a run produces carries an id that follows from its source, and that source is one of the files' basenames |
| PdfLoader.AllVectorsDistinct | pdf_loader.py:135-139 | files with pairwise different basenames never produce the same id twice |
| PdfLoader.LoadPdfs | pdf_loader.py:107-142 | the result is False exactly when the client or the index setup fails. After a successful setup, a failure to connect to the index, build the tools or list the directory escapes with its message. The result is True exactly when all of these succeed. On True the `.pdf` files are processed in listing order, `studyrag` has the fresh configuration, and every other index is kept as it was; otherwise nothing is processed and the index is as setup left it |
| PdfLoader.ResultIgnoresFileErrors | pdf_loader.py:103-142 | the result does not depend on what loading, splitting or embedding does to any file |
| PdfLoader.IngestedIndexContents | pdf_loader.py:107-142 | after a successful run the index ids are exactly the ids of the records the `.pdf` files produced; for a listing without repeats, each record is stored unaltered and none is overwritten |
| Text.NatToString | pdf_loader.py:87 | a position renders as a non-empty string of decimal digits with no leading zero |
| Text.ParseRender | pdf_loader.py:87 | reading the rendered digits back gives the position |
| Text.RenderInjective | pdf_loader.py:87 | two positions render the same exactly when they are equal |
| Text.DigitTailUnique | pdf_loader.py:87 | an id splits uniquely into a prefix ending in a non-digit and a digit tail |
| Text.EndsWith | pdf_loader.py:135 | `str.endswith`; `PdfLoader.PdfNames` and `PdfLoader.PdfNamesMultiplicity` state which names it keeps |
| Paths.AfterLastSlash | pdf_loader.py:87 | the basename starts after the last `/`, with no `/` after that point |
| Paths.Basename | pdf_loader.py:87-91 | `os.path.basename`; stated by `Paths.BasenameIsLastComponent` and `Paths.BasenameOfJoin` |
| Paths.Join | pdf_loader.py:135 | two-argument `os.path.join`; stated by `Paths.BasenameOfJoin` |
| Paths.BasenameIsLastComponent | pdf_loader.py:87-91 | the basename is a slash-free suffix of the path; it is either the whole path or preceded by `/` |
| Paths.AfterLastSlashPast | pdf_loader.py:87-91 | after a prefix that is empty or ends in `/`, a name without `/` leaves the last component starting right after the prefix |
| Paths.BasenameOfJoin | pdf_loader.py:135 | joining a directory with a slash-free entry name and taking the basename gives the name back |
| RagQuery.SimilaritySearch | rag_query.py:39 | the retrieved chunks are the first k of the ranking; there are fewer only when the store holds fewer, and none exactly when the store is empty |
| RagQuery.JoinLines | rag_query.py:46 | joining a single text gives that text |
| RagQuery.SplitLines | rag_query.py:46 | splitting at newlines gives at least one piece, and no piece holds a newline |
| RagQuery.SplitJoinLines | rag_query.py:46 | splitting the joined texts at newlines gives them back, when none contains a newline |
| RagQuery.JoinLinesSuffix | rag_query.py:46 | the joined text from where line i starts is the join of lines i onward |
| RagQuery.JoinLinesLine | rag_query.py:46 | each text occurs verbatim in the joined context, at its line's start |
| RagQuery.JoinLinesBreak | rag_query.py:46 | every text except the last is followed by a newline in the joined context |
| RagQuery.Instructions | rag_query.py:49-62 | the instruction text is one of the two templates |
| RagQuery.FillTemplate | rag_query.py:49-62 | the prompt is the instructions, then the context, then the question lead, then the query, each at its exact offset |
| RagQuery.ComposePrompt | rag_query.py:49-62 | the template the mode selects, with the question right after the question lead that follows the context; which template opens it is stated by `RagQuery.PromptModeIff`. `RagQuery.PromptFor` fills it with the top chunks, which `RagQuery.PromptCarriesChunk` and `RagQuery.PromptSeparatesChunks` place |
| RagQuery.HeadsDiffer | rag_query.py:50-57 | the two templates diverge right after their shared opening ("both" against "ONLY"), so neither is a prefix of the other |
| RagQuery.PromptModeIff | rag_query.py:49-62 | the prompt opens with the general-knowledge instructions if and only if `use_gpt_knowledge` is set, and with the document-only ones if and only if it is not |
| RagQuery.Contents | rag_query.py:46 | the context lines are the retrieved chunks' texts, in order |
| RagQuery.TopTexts | rag_query.py:39-46 | the context is built from the texts of the top three chunks, in ranking order |
| RagQuery.QueryKnowledgeBase | rag_query.py:16-70 | a failing search gives the error prefix plus its message; an empty result gives the fallback sentence; otherwise the answer is the model's reply to the prompt for the top chunks, or the error prefix plus the model's message |
| RagQuery.NoDocumentsSkipsModel | rag_query.py:42-43 | with nothing retrieved the answer is the fallback sentence, whatever the model would say |
| RagQuery.ModelSeesOnlyThePrompt | rag_query.py:65-67 | two models that agree on the one prompt give the same answer |
| RagQuery.OnlyTopChunksMatter | rag_query.py:39 | chunks ranked below the third never influence the answer |
| RagQuery.PromptCarriesChunk | rag_query.py:46-62 | each top chunk's text occurs verbatim in the prompt, after the instructions, at its line of the context |
| RagQuery.PromptSeparatesChunks | rag_query.py:46-62 | in the prompt a newline follows every top chunk except the last |
| RagQuery.FailuresBecomeAnswers | rag_query.py:69-70 | a failing search or model call yields an answer that starts with the error prefix, and the rest of the answer is the exception's message |
| RagQuery.DefaultModeIsGeneralKnowledge | rag_query.py:16 | leaving out `use_gpt_knowledge` is the call with it set, so the model's prompt opens with the general-knowledge instructions |
| RagQuery.AnswerIsAmbiguous | rag_query.py:16-70 | a model that replies with the fallback sentence produces the same answer as an empty store |

## Left out

- File persistence is not modelled. This covers the JSON files of a profile, `os.makedirs`, and the load and save helpers. A profile is the pair of values those files hold. A file that already exists is an `Option` input to `OpenProfile`.
- `get_progress_stats` is not modelled, because it only reads the statistics file back. The statistics value itself stands for it.
- The sentence-embedding model of `UserProfiles` is not modelled, because it is a foreign call. Its answer for the question is an input, either the embedding or the exception's message, in `UserProfiles.LogInteractionCall`. Loading the encoder in the constructor is left out.
- `datetime.now()` is not modelled, because it is a clock. Its three readings in `log_interaction` are three opaque strings in a `Clock`, and they may differ.
- `initialize_pinecone` is a boolean input of `LoadPdfs`, because client construction is a foreign call. Its printed messages are left out.
- The Pinecone, OpenAI, PDF-loader and text-splitter calls are not modelled, because they are remote or foreign services. Each is given its answer or an exception message as an input. The splitter's chunk size and overlap are not modelled. `similarity_search` is an opaque ranking, of which the first three are taken.
- `time.sleep(5)` and index readiness are not modelled, because they are timing.
- Every `print` is left out. The messages are only logging.
- The chat model's temperature of 0.7 is not modelled. It affects nothing outside the chat model, which is a parameter.
- Floating point is modelled as exact reals in `UserProfiles.UnderstandingScore`. `min(x / 100, 1.0)` is computed exactly, so the rounding of Python floats is not modelled.
- A failing `index.upsert` is not modelled separately from a failing embedding call. Both end the file's loop in the same way, and the model upserts a batch whenever its embeddings arrive.
- The module-level Pinecone client construction in `rag_query.py` (line 14) is not modelled. It runs when the module is imported, outside the `try`, so its failure makes the import raise and no answer is produced at all. `query_knowledge_base` never uses that client. The clients built inside the `try` (lines 29-36) are folded into the `search` input of `QueryKnowledgeBase`, together with the similarity search: a failure in any of those steps is an `Err`.
- `main.py`, `app.py` and the web front end are not part of this model.
- PdfLoader.PdfFiles: its own contract states only the length. The content of the paths is stated by `PdfLoader.PdfFilesInDirectory` and `PdfLoader.PdfFilesFromListing`.
- UserProfiles.CountTopic: a reference definition of how many log entries are on a topic. Its own contract only bounds it by the log length.
- PdfLoader.ReliableEmbedderValues: the embedding a record carries is stated only for an embedding service that always answers one vector per text. For other answers, `PdfLoader.ProcessPdfBatches` states that each upsert is built from its own batch's answer, cut to the shorter list as `zip` does.

=== FILE: common.dfy ===
/** Small shared vocabulary: optional values, results that carry an
    exception message, and `min` over naturals. */
module Common {

  /** Python's `None` or a present value. */
  datatype Option<+T> = None | Some(value: T)

  /** The outcome of a call that may raise: the value, or the text `str(e)`
      of the exception it raised. */
  datatype Result<+T> = Ok(value: T) | Err(message: string)

  function MinNat(a: nat, b: nat): (r: nat)
    ensures r <= a && r <= b
    ensures r == a || r == b
  {
    if a <= b then a else b
  }
}

=== FILE: paths.dfy ===
/** The two POSIX path operations the ingestion code relies on:
    `os.path.basename` and `os.path.join` with two arguments. */
module Paths {

  /** The position just after the last `/` in `p`, or 0 when there is none
      (`p.rfind('/') + 1`). */
  function AfterLastSlash(p: string): (i: nat)
    ensures i <= |p|
    ensures forall k :: i <= k < |p| ==> p[k] != '/'
    ensures 0 < i ==> p[i - 1] == '/'
    decreases |p|
  {
    if |p| == 0 then 0
    else if p[|p| - 1] == '/' then |p|
    else AfterLastSlash(p[..|p| - 1])
  }

  /** `os.path.basename(p)`: everything after the last `/`. */
  function Basename(p: string): (b: string)
    ensures |b| <= |p|
    ensures '/' in p ==> |b| < |p|
  {
    p[AfterLastSlash(p)..]
  }

  /** The basename is the longest suffix without a `/`: a suffix of `p`
      free of `/`, which is either all of `p` or preceded by a `/`. */
  lemma BasenameIsLastComponent(p: string)
    ensures '/' !in Basename(p)
    ensures |Basename(p)| <= |p| && p[|p| - |Basename(p)|..] == Basename(p)
    ensures |Basename(p)| < |p| ==> p[|p| - |Basename(p)| - 1] == '/'
  {
    var i := AfterLastSlash(p);
    assert forall k :: 0 <= k < |p[i..]| ==> p[i..][k] == p[i + k];
  }

  /** `os.path.join(a, b)`: an absolute `b` wins; otherwise `b` is appended
      after a separator, unless `a` is empty or already ends in one. */
  function Join(a: string, b: string): (j: string)
    ensures |b| <= |j| && j[|j| - |b|..] == b
    ensures 0 < |b| && b[0] == '/' ==> j == b
  {
    if 0 < |b| && b[0] == '/' then b
    else if |a| == 0 || a[|a| - 1] == '/' then a + b
    else a + "/" + b
  }

  /** With no `/` after a prefix that is empty or ends in one, the last
      component starts right after that prefix. */
  lemma {:induction false} AfterLastSlashPast(x: string, name: string)
    requires '/' !in name
    requires |x| == 0 || x[|x| - 1] == '/'
    ensures AfterLastSlash(x + name) == |x|
    decreases |name|
  {
    var p := x + name;
    if 0 < |name| {
      var init := name[..|name| - 1];
      assert p[..|p| - 1] == x + init;
      assert p[|p| - 1] == name[|name| - 1];
      assert name[|name| - 1] in name;
      assert '/' !in init by {
        forall c | c in init ensures c in name { }
      }
      AfterLastSlashPast(x, init);
    } else {
      assert p == x;
    }
  }

  /** Joining a directory with a plain entry name (no `/`, as every name
      `os.listdir` returns) and taking the basename gives the name back. */
  lemma BasenameOfJoin(dir: string, name: string)
    requires '/' !in name
    ensures Basename(Join(dir, name)) == name
  {
    var x := if |dir| == 0 || dir[|dir| - 1] == '/' then dir else dir + "/";
    var p := x + name;
    assert Join(dir, name) == p by {
      if 0 < |name| {
        assert name[0] in name;
      }
    }
    AfterLastSlashPast(x, name);
    assert p[|x|..] == name;
  }
}

=== FILE: pdf_loader.dfy ===
/** Document ingestion: the batch loop of `process_pdf` that turns a file's
    chunks into vector records, `create_or_recreate_index`, and the driver
    `load_pdfs_to_chroma` that rebuilds the index and feeds it every `.pdf`
    file of a directory. The PDF loader, the text splitter, the embedding
    service and the vector-store service are inputs: their answers (or the
    exception they raise) are given to the model. */
module PdfLoader {
  import opened Common
  import Text
  import Paths

  const IndexName := "studyrag"
  const Dimension: nat := 1536
  const BatchSize: nat := 100
  const ChunkMarker := "-chunk-"
  const PdfSuffix := ".pdf"

  /** A chunk from the text splitter: its text and, when the loader set
      one, its page number. */
  datatype Chunk = Chunk(pageContent: string, page: Option<int>)

  type Embedding = seq<real>

  datatype Metadata = Metadata(text: string, source: string, page: int)

  /** One record handed to `index.upsert`. */
  datatype Vector = Vector(id: string, values: Embedding, metadata: Metadata)

  /** An embedding service call (`embed_documents`): one vector per text on
      success, or the message of the exception it raised. */
  type Embedder = seq<string> -> Result<seq<Embedding>>

  // ---------------------------------------------------------------------
  // Batching

  /** Every list in `bs` is non-empty and holds at most one batch's worth. */
  predicate Bounded<T>(bs: seq<seq<T>>) {
    forall j :: 0 <= j < |bs| ==> 0 < |bs[j]| <= BatchSize
  }

  /** Python's `texts[i:i + 100]` for every `i` in `range(start, n, 100)`. */
  function BatchesFrom<T>(xs: seq<T>, i: nat): (bs: seq<seq<T>>)
    ensures Bounded(bs)
    decreases |xs| - i
  {
    if i >= |xs| then []
    else [xs[i..MinNat(i + BatchSize, |xs|)]] + BatchesFrom(xs, i + BatchSize)
  }

  function Batches<T>(xs: seq<T>): (bs: seq<seq<T>>)
    ensures Bounded(bs)
    ensures bs == [] <==> xs == []
  {
    BatchesFrom(xs, 0)
  }

  function Concat<T>(bs: seq<seq<T>>): seq<T>
    decreases |bs|
  {
    if |bs| == 0 then [] else bs[0] + Concat(bs[1..])
  }

  lemma ConcatCons<T>(b: seq<T>, bs: seq<seq<T>>)
    ensures Concat([b] + bs) == b + Concat(bs)
  {
    assert ([b] + bs)[1..] == bs;
  }

  lemma {:induction false} BatchesFromConcat<T>(xs: seq<T>, i: nat)
    requires i <= |xs|
    ensures Concat(BatchesFrom(xs, i)) == xs[i..]
    decreases |xs| - i
  {
    if i < |xs| {
      var e := MinNat(i + BatchSize, |xs|);
      var rest := BatchesFrom(xs, i + BatchSize);
      assert BatchesFrom(xs, i) == [xs[i..e]] + rest;
      ConcatCons(xs[i..e], rest);
      if i + BatchSize <= |xs| {
        BatchesFromConcat(xs, i + BatchSize);
        assert xs[i..e] + xs[e..] == xs[i..];
      } else {
        assert rest == [];
        assert xs[i..e] + [] == xs[i..];
      }
    }
  }

  lemma {:induction false} BatchesFromCount<T>(xs: seq<T>, i: nat)
    requires i <= |xs|
    ensures |BatchesFrom(xs, i)| == (|xs| - i + BatchSize - 1) / BatchSize
    decreases |xs| - i
  {
    if i < |xs| && i + BatchSize <= |xs| {
      BatchesFromCount(xs, i + BatchSize);
    }
  }

  lemma {:induction false} BatchesFromAt<T>(xs: seq<T>, i: nat)
    ensures forall b :: 0 <= b < |BatchesFrom(xs, i)| ==>
              i + b * BatchSize < |xs| &&
              BatchesFrom(xs, i)[b] == xs[i + b * BatchSize..MinNat(i + b * BatchSize + BatchSize, |xs|)]
    decreases |xs| - i
  {
    if i < |xs| {
      var bs := BatchesFrom(xs, i);
      var rest := BatchesFrom(xs, i + BatchSize);
      BatchesFromAt(xs, i + BatchSize);
      forall b | 0 <= b < |bs|
        ensures i + b * BatchSize < |xs|
        ensures bs[b] == xs[i + b * BatchSize..MinNat(i + b * BatchSize + BatchSize, |xs|)]
      {
        if b > 0 {
          assert bs[b] == rest[b - 1];
          assert i + b * BatchSize == (i + BatchSize) + (b - 1) * BatchSize;
        }
      }
    }
  }

  /** The batches of `process_pdf` cover the chunks exactly once, in order:
      concatenated they give back the chunk list, each is non-empty and at
      most 100 long, batch `b` starts at chunk `100 * b`, and there are
      `(n + 99) // 100` of them, the total the progress message announces. */
  lemma BatchesPartition<T>(xs: seq<T>)
    ensures Concat(Batches(xs)) == xs
    ensures |Batches(xs)| == (|xs| + BatchSize - 1) / BatchSize
    ensures forall b :: 0 <= b < |Batches(xs)| ==> 0 < |Batches(xs)[b]| <= BatchSize
    ensures forall b :: 0 <= b < |Batches(xs)| ==>
              b * BatchSize < |xs| &&
              Batches(xs)[b] == xs[b * BatchSize..MinNat(b * BatchSize + BatchSize, |xs|)]
  {
    BatchesFromConcat(xs, 0);
    BatchesFromCount(xs, 0);
    BatchesFromAt(xs, 0);
  }

  // ---------------------------------------------------------------------
  // Vector records

  /** `text.metadata.get("page", 0)`. */
  function PageOf(c: Chunk): (page: int)
    ensures c.page.Some? ==> page == c.page.value
    ensures c.page.None? ==> page == 0
  {
    match c.page
    case Some(p) => p
    case None => 0
  }

  /** The id of the vector for the chunk at position `k` of a file whose
      basename is `source`: `f"{source}-chunk-{k}"`. */
  function VectorId(source: string, k: nat): (id: string)
    ensures |source| + |ChunkMarker| < |id|
    ensures id[..|source|] == source
    ensures id[|source|..|source| + |ChunkMarker|] == ChunkMarker
  {
    source + ChunkMarker + Text.NatToString(k)
  }

  /** Different (basename, position) pairs never share an id: the digits
      after the last `-chunk-` determine both. */
  lemma VectorIdInjective(s1: string, k1: nat, s2: string, k2: nat)
    ensures VectorId(s1, k1) == VectorId(s2, k2) <==> s1 == s2 && k1 == k2
  {
    if VectorId(s1, k1) == VectorId(s2, k2) {
      var p1, p2 := s1 + ChunkMarker, s2 + ChunkMarker;
      assert p1[|p1| - 1] == '-' && p2[|p2| - 1] == '-';
      assert VectorId(s1, k1) == p1 + Text.NatToString(k1);
      assert VectorId(s2, k2) == p2 + Text.NatToString(k2);
      Text.DigitTailUnique(p1, Text.NatToString(k1), p2, Text.NatToString(k2));
      assert s1 == p1[..|s1|] == p2[..|s2|] == s2;
      Text.RenderInjective(k1, k2);
    }
  }

  function Contents(batch: seq<Chunk>): (cs: seq<string>)
    ensures |cs| == |batch|
    ensures forall j :: 0 <= j < |batch| ==> cs[j] == batch[j].pageContent
  {
    seq(|batch|, j requires 0 <= j < |batch| => batch[j].pageContent)
  }

  /** The record for chunk `c` at position `k` of file `source`. */
  function MakeVector(source: string, k: nat, c: Chunk, e: Embedding): (v: Vector)
    ensures v.id == VectorId(source, k)
    ensures v.values == e
    ensures v.metadata == Metadata(c.pageContent, source, PageOf(c))
  {
    Vector(VectorId(source, k), e, Metadata(c.pageContent, source, PageOf(c)))
  }

  /** The comprehension over `enumerate(zip(batch, embeddings_batch))` for a
      batch starting at chunk `start`: `zip` stops at the shorter list. */
  function BuildVectors(source: string, start: nat, batch: seq<Chunk>, es: seq<Embedding>): (vs: seq<Vector>)
    ensures |vs| == MinNat(|batch|, |es|)
    ensures forall j :: 0 <= j < |vs| ==> vs[j] == MakeVector(source, start + j, batch[j], es[j])
  {
    seq(MinNat(|batch|, |es|), j requires 0 <= j < MinNat(|batch|, |es|) => MakeVector(source, start + j, batch[j], es[j]))
  }

  // ---------------------------------------------------------------------
  // process_pdf

  /** What processing one file did: the vector lists it upserted, one per
      batch and in order, and whether it reached the end. An exception stops
      the file where it was raised; `process_pdf` catches it. */
  datatype PdfOutcome = PdfOutcome(upserts: seq<seq<Vector>>, finished: bool)

  /** The batch loop from chunk `i` on. */
  function UpsertsFrom(source: string, texts: seq<Chunk>, i: nat, embed: Embedder): (o: PdfOutcome)
    ensures forall j :: 0 <= j < |o.upserts| ==> |o.upserts[j]| <= BatchSize
    decreases |texts| - i
  {
    if i >= |texts| then PdfOutcome([], true)
    else
      var batch := texts[i..MinNat(i + BatchSize, |texts|)];
      match embed(Contents(batch))
      case Err(_) => PdfOutcome([], false)
      case Ok(es) =>
        var rest := UpsertsFrom(source, texts, i + BatchSize, embed);
        PdfOutcome([BuildVectors(source, i, batch, es)] + rest.upserts, rest.finished)
  }

  /** `process_pdf`: `texts` is what loading and splitting the file gave, or
      the exception they raised. */
  function ProcessPdf(filePath: string, texts: Result<seq<Chunk>>, embed: Embedder): (o: PdfOutcome)
    ensures texts.Err? ==> o.upserts == [] && !o.finished
    ensures forall j :: 0 <= j < |o.upserts| ==> |o.upserts[j]| <= BatchSize
  {
    match texts
    case Err(_) => PdfOutcome([], false)
    case Ok(chunks) => UpsertsFrom(Paths.Basename(filePath), chunks, 0, embed)
  }

  /** The loop from chunk `i` upserts a prefix of the batches; it is
      cut short exactly by a failing embedding call. */
  lemma {:induction false} UpsertsFromStops(source: string, texts: seq<Chunk>, i: nat, embed: Embedder)
    ensures |UpsertsFrom(source, texts, i, embed).upserts| <= |BatchesFrom(texts, i)|
    ensures UpsertsFrom(source, texts, i, embed).finished
        <==> |UpsertsFrom(source, texts, i, embed).upserts| == |BatchesFrom(texts, i)|
    ensures !UpsertsFrom(source, texts, i, embed).finished ==>
              embed(Contents(BatchesFrom(texts, i)[|UpsertsFrom(source, texts, i, embed).upserts|])).Err?
    decreases |texts| - i
  {
    if i < |texts| {
      var batch := texts[i..MinNat(i + BatchSize, |texts|)];
      var bs := BatchesFrom(texts, i);
      var rbs := BatchesFrom(texts, i + BatchSize);
      assert bs == [batch] + rbs;
      if embed(Contents(batch)).Ok? {
        UpsertsFromStops(source, texts, i + BatchSize, embed);
        var o := UpsertsFrom(source, texts, i, embed);
        var rest := UpsertsFrom(source, texts, i + BatchSize, embed);
        assert |o.upserts| == |rest.upserts| + 1;
        if !o.finished {
          assert bs[|o.upserts|] == rbs[|rest.upserts|];
        }
      }
    }
  }

  /** `vs` is what the loop upserts for `batch` (starting at chunk `start`):
      the embedding call succeeded and the records pair each chunk with its
      embedding. */
  ghost predicate UpsertOfBatch(source: string, start: nat, batch: seq<Chunk>, embed: Embedder, vs: seq<Vector>) {
    embed(Contents(batch)).Ok? && vs == BuildVectors(source, start, batch, embed(Contents(batch)).value)
  }

  /** The `b`-th upsert of the loop from chunk `i` holds the vectors of
      batch `b`, built from that batch's embeddings. */
  lemma {:induction false} UpsertsFromAt(source: string, texts: seq<Chunk>, i: nat, embed: Embedder)
    ensures forall b :: 0 <= b < |UpsertsFrom(source, texts, i, embed).upserts| && b < |BatchesFrom(texts, i)| ==>
              UpsertOfBatch(source, i + b * BatchSize, BatchesFrom(texts, i)[b], embed,
                            UpsertsFrom(source, texts, i, embed).upserts[b])
    decreases |texts| - i
  {
    if i < |texts| {
      var batch := texts[i..MinNat(i + BatchSize, |texts|)];
      var bs := BatchesFrom(texts, i);
      var rbs := BatchesFrom(texts, i + BatchSize);
      assert bs == [batch] + rbs;
      if embed(Contents(batch)).Ok? {
        UpsertsFromAt(source, texts, i + BatchSize, embed);
        var o := UpsertsFrom(source, texts, i, embed);
        var rest := UpsertsFrom(source, texts, i + BatchSize, embed);
        assert o.upserts == [BuildVectors(source, i, batch, embed(Contents(batch)).value)] + rest.upserts;
        forall b | 0 <= b < |o.upserts| && b < |bs|
          ensures UpsertOfBatch(source, i + b * BatchSize, bs[b], embed, o.upserts[b])
        {
          if b > 0 {
            assert o.upserts[b] == rest.upserts[b - 1];
            assert bs[b] == rbs[b - 1];
            assert i + b * BatchSize == (i + BatchSize) + (b - 1) * BatchSize;
          }
        }
      } else {
        assert UpsertsFrom(source, texts, i, embed).upserts == [];
      }
    } else {
      assert UpsertsFrom(source, texts, i, embed).upserts == [];
    }
  }

  /** `process_pdf` embeds and upserts the batches in order and stops at the
      first failing embedding call: the `b`-th upsert holds the vectors built
      from batch `b` (chunks `100 * b` onwards) and its embeddings, the file
      counts as finished exactly when every batch was upserted, and an
      unfinished file names the batch that failed. A file that could not be
      loaded or split upserts nothing. */
  lemma ProcessPdfBatches(filePath: string, texts: Result<seq<Chunk>>, embed: Embedder)
    ensures var o := ProcessPdf(filePath, texts, embed);
            texts.Err? ==> o.upserts == [] && !o.finished
    ensures var o := ProcessPdf(filePath, texts, embed);
            texts.Ok? ==>
            var bs := Batches(texts.value);
            && |o.upserts| <= |bs|
            && (o.finished <==> |o.upserts| == |bs|)
            && (!o.finished ==> embed(Contents(bs[|o.upserts|])).Err?)
            && (forall b :: 0 <= b < |o.upserts| ==>
                  UpsertOfBatch(Paths.Basename(filePath), b * BatchSize, bs[b], embed, o.upserts[b]))
  {
    if texts.Ok? {
      UpsertsFromStops(Paths.Basename(filePath), texts.value, 0, embed);
      UpsertsFromAt(Paths.Basename(filePath), texts.value, 0, embed);
    }
  }

  /** The chunk position behind each vector the loop from `i` upserts, in
      upsert order. */
  function ChunkIndicesFrom(texts: seq<Chunk>, i: nat, embed: Embedder): seq<nat>
    decreases |texts| - i
  {
    if i >= |texts| then []
    else
      var batch := texts[i..MinNat(i + BatchSize, |texts|)];
      match embed(Contents(batch))
      case Err(_) => []
      case Ok(es) => Positions(i, MinNat(|batch|, |es|)) + ChunkIndicesFrom(texts, i + BatchSize, embed)
  }

  /** The positions `from`, `from + 1`, ..., `from + n - 1`. */
  function Positions(from: nat, n: nat): (ks: seq<nat>)
    ensures |ks| == n
    ensures forall j :: 0 <= j < n ==> ks[j] == from + j
  {
    seq(n, j requires 0 <= j < n => from + j)
  }

  /** `v` is the record for chunk `k` of `texts` in file `source`. */
  ghost predicate RecordOfChunk(source: string, texts: seq<Chunk>, k: nat, v: Vector) {
    && k < |texts|
    && v.id == VectorId(source, k)
    && v.metadata == Metadata(texts[k].pageContent, source, PageOf(texts[k]))
  }

  /** `vs` are the records of the chunks at positions `ks`, pairwise. */
  ghost predicate RecordsOf(source: string, texts: seq<Chunk>, ks: seq<nat>, vs: seq<Vector>) {
    |ks| == |vs| && forall p :: 0 <= p < |ks| ==> RecordOfChunk(source, texts, ks[p], vs[p])
  }

  lemma RecordsOfAppend(source: string, texts: seq<Chunk>, k1: seq<nat>, v1: seq<Vector>, k2: seq<nat>, v2: seq<Vector>)
    requires RecordsOf(source, texts, k1, v1) && RecordsOf(source, texts, k2, v2)
    ensures RecordsOf(source, texts, k1 + k2, v1 + v2)
  {
    forall p | 0 <= p < |k1 + k2|
      ensures RecordOfChunk(source, texts, (k1 + k2)[p], (v1 + v2)[p])
    {
      if p < |k1| {
        assert (k1 + k2)[p] == k1[p] && (v1 + v2)[p] == v1[p];
      } else {
        assert (k1 + k2)[p] == k2[p - |k1|] && (v1 + v2)[p] == v2[p - |k1|];
      }
    }
  }

  /** The vectors built for the batch at chunk `i` are the records of the
      chunks at the positions it covers. */
  lemma BatchRecords(source: string, texts: seq<Chunk>, i: nat, es: seq<Embedding>)
    requires i < |texts|
    ensures var batch := texts[i..MinNat(i + BatchSize, |texts|)];
      RecordsOf(source, texts, Positions(i, MinNat(|batch|, |es|)), BuildVectors(source, i, batch, es))
  {
    var batch := texts[i..MinNat(i + BatchSize, |texts|)];
    var ks := Positions(i, MinNat(|batch|, |es|));
    var vs := BuildVectors(source, i, batch, es);
    forall p | 0 <= p < |ks|
      ensures RecordOfChunk(source, texts, ks[p], vs[p])
    {
      assert batch[p] == texts[i + p];
    }
  }

  /** The chunk positions the loop from `i` visits are at least `i`, below
      the chunk count, and strictly increasing. */
  lemma {:induction false} ChunkIndicesFromOrdered(texts: seq<Chunk>, i: nat, embed: Embedder)
    ensures forall p :: 0 <= p < |ChunkIndicesFrom(texts, i, embed)| ==>
              i <= ChunkIndicesFrom(texts, i, embed)[p] < |texts|
    ensures forall p, q :: 0 <= p < q < |ChunkIndicesFrom(texts, i, embed)| ==>
              ChunkIndicesFrom(texts, i, embed)[p] < ChunkIndicesFrom(texts, i, embed)[q]
    decreases |texts| - i
  {
    if i < |texts| {
      var batch := texts[i..MinNat(i + BatchSize, |texts|)];
      if embed(Contents(batch)).Ok? {
        var es := embed(Contents(batch)).value;
        ChunkIndicesFromOrdered(texts, i + BatchSize, embed);
        var m := MinNat(|batch|, |es|);
        var headKs := Positions(i, m);
        var restKs := ChunkIndicesFrom(texts, i + BatchSize, embed);
        var ks := ChunkIndicesFrom(texts, i, embed);
        assert ks == headKs + restKs;
        assert forall p :: 0 <= p < m ==> ks[p] == i + p < i + BatchSize;
        assert forall p :: m <= p < |ks| ==> ks[p] == restKs[p - m];
      }
    }
  }

  /** Every vector the loop from `i` upserts is the record of the chunk at
      the matching visited position. */
  lemma {:induction false} UpsertedVectorsFrom(source: string, texts: seq<Chunk>, i: nat, embed: Embedder)
    ensures RecordsOf(source, texts, ChunkIndicesFrom(texts, i, embed), Concat(UpsertsFrom(source, texts, i, embed).upserts))
    decreases |texts| - i
  {
    if i < |texts| {
      var batch := texts[i..MinNat(i + BatchSize, |texts|)];
      if embed(Contents(batch)).Ok? {
        var es := embed(Contents(batch)).value;
        var head := BuildVectors(source, i, batch, es);
        var rest := UpsertsFrom(source, texts, i + BatchSize, embed);
        UpsertedVectorsFrom(source, texts, i + BatchSize, embed);
        BatchRecords(source, texts, i, es);
        assert UpsertsFrom(source, texts, i, embed).upserts == [head] + rest.upserts;
        ConcatCons(head, rest.upserts);
        RecordsOfAppend(source, texts, Positions(i, MinNat(|batch|, |es|)), head,
                        ChunkIndicesFrom(texts, i + BatchSize, embed), Concat(rest.upserts));
      } else {
        assert UpsertsFrom(source, texts, i, embed).upserts == [];
      }
    } else {
      assert UpsertsFrom(source, texts, i, embed).upserts == [];
    }
  }

  /** All vectors of a file, in upsert order. */
  function FileVectors(filePath: string, texts: Result<seq<Chunk>>, embed: Embedder): seq<Vector> {
    Concat(ProcessPdf(filePath, texts, embed).upserts)
  }

  ghost predicate DistinctIds(vs: seq<Vector>) {
    forall p, q :: 0 <= p < q < |vs| ==> vs[p].id != vs[q].id
  }

  /** The id of `v` is the one its source file and some chunk position give. */
  ghost predicate IdMatchesSource(v: Vector) {
    exists k: nat :: v.id == VectorId(v.metadata.source, k)
  }

  /** Within one file the vector ids are pairwise distinct, every vector
      names the file's basename as its source, and its id is that basename
      with a chunk position. */
  lemma FileVectorsWellFormed(filePath: string, texts: Result<seq<Chunk>>, embed: Embedder)
    ensures DistinctIds(FileVectors(filePath, texts, embed))
    ensures forall p :: 0 <= p < |FileVectors(filePath, texts, embed)| ==>
              FileVectors(filePath, texts, embed)[p].metadata.source == Paths.Basename(filePath)
              && IdMatchesSource(FileVectors(filePath, texts, embed)[p])
  {
    if texts.Ok? {
      var source := Paths.Basename(filePath);
      var vs := FileVectors(filePath, texts, embed);
      var ks := ChunkIndicesFrom(texts.value, 0, embed);
      UpsertedVectorsFrom(source, texts.value, 0, embed);
      ChunkIndicesFromOrdered(texts.value, 0, embed);
      forall p, q | 0 <= p < q < |vs|
        ensures vs[p].id != vs[q].id
      {
        assert RecordOfChunk(source, texts.value, ks[p], vs[p]);
        assert RecordOfChunk(source, texts.value, ks[q], vs[q]);
        VectorIdInjective(source, ks[p], source, ks[q]);
      }
      forall p | 0 <= p < |vs|
        ensures vs[p].metadata.source == source && IdMatchesSource(vs[p])
      {
        assert RecordOfChunk(source, texts.value, ks[p], vs[p]);
        assert vs[p].id == VectorId(vs[p].metadata.source, ks[p]);
      }
    } else {
      assert FileVectors(filePath, texts, embed) == [];
    }
  }

  /** The embedding service always answers, with one vector per text. */
  ghost predicate Reliable(embed: Embedder) {
    forall cs :: embed(cs).Ok? && |embed(cs).value| == |cs|
  }

  lemma {:induction false} ReliableIndicesFrom(texts: seq<Chunk>, i: nat, embed: Embedder)
    requires Reliable(embed)
    requires i <= |texts|
    ensures ChunkIndicesFrom(texts, i, embed) == Positions(i, |texts| - i)
    decreases |texts| - i
  {
    if i < |texts| {
      var e := MinNat(i + BatchSize, |texts|);
      var batch := texts[i..e];
      assert |embed(Contents(batch)).value| == |batch|;
      if i + BatchSize <= |texts| {
        ReliableIndicesFrom(texts, i + BatchSize, embed);
      }
    }
  }

  lemma {:induction false} ReliableFinishes(source: string, texts: seq<Chunk>, i: nat, embed: Embedder)
    requires Reliable(embed)
    ensures UpsertsFrom(source, texts, i, embed).finished
    decreases |texts| - i
  {
    if i < |texts| {
      var batch := texts[i..MinNat(i + BatchSize, |texts|)];
      assert embed(Contents(batch)).Ok?;
      ReliableFinishes(source, texts, i + BatchSize, embed);
    }
  }

  /** The start of the batch that holds chunk `k` when the loop starts at
      chunk `i`. */
  function BatchStartOf(i: nat, k: nat): (b: nat)
    requires i <= k
    ensures i <= b <= k < b + BatchSize
    decreases k - i
  {
    if k < i + BatchSize then i else BatchStartOf(i + BatchSize, k)
  }

  /** From chunk 0 the batch start is `k // 100 * 100`, and the offset in
      the batch is `k % 100`. */
  lemma {:induction false} BatchStartOfDiv(i: nat, k: nat)
    requires i <= k
    ensures BatchStartOf(i, k) == i + (k - i) / BatchSize * BatchSize
    decreases k - i
  {
    if k >= i + BatchSize {
      BatchStartOfDiv(i + BatchSize, k);
      assert (k - i - BatchSize) / BatchSize == (k - i) / BatchSize - 1;
    }
  }

  /** With an embedding service that always answers, one step of the loop
      upserts a record for every chunk of the batch, followed by the rest. */
  lemma ReliableStep(source: string, texts: seq<Chunk>, i: nat, embed: Embedder)
    requires Reliable(embed)
    requires i < |texts|
    ensures var batch := texts[i..MinNat(i + BatchSize, |texts|)];
            && |embed(Contents(batch)).value| == |batch|
            && Concat(UpsertsFrom(source, texts, i, embed).upserts)
               == BuildVectors(source, i, batch, embed(Contents(batch)).value)
                  + Concat(UpsertsFrom(source, texts, i + BatchSize, embed).upserts)
  {
    var batch := texts[i..MinNat(i + BatchSize, |texts|)];
    var head := BuildVectors(source, i, batch, embed(Contents(batch)).value);
    var rest := UpsertsFrom(source, texts, i + BatchSize, embed);
    assert UpsertsFrom(source, texts, i, embed).upserts == [head] + rest.upserts;
    ConcatCons(head, rest.upserts);
  }

  /** `v` carries the embedding at `offset` of the answer to the batch that
      starts at chunk `start`. */
  ghost predicate CarriesEmbedding(texts: seq<Chunk>, embed: Embedder, start: nat, offset: nat, v: Vector) {
    && start <= |texts|
    && var answer := embed(Contents(texts[start..MinNat(start + BatchSize, |texts|)]));
       answer.Ok? && offset < |answer.value| && v.values == answer.value[offset]
  }

  /** The record built for chunk `k` of the batch at `i` carries the
      embedding at offset `k - i` of that batch's answer. */
  lemma BatchValue(source: string, texts: seq<Chunk>, i: nat, embed: Embedder, k: nat)
    requires i <= k < MinNat(i + BatchSize, |texts|)
    requires embed(Contents(texts[i..MinNat(i + BatchSize, |texts|)])).Ok?
    requires |embed(Contents(texts[i..MinNat(i + BatchSize, |texts|)])).value| == MinNat(i + BatchSize, |texts|) - i
    ensures var batch := texts[i..MinNat(i + BatchSize, |texts|)];
            CarriesEmbedding(texts, embed, i, k - i,
                             BuildVectors(source, i, batch, embed(Contents(batch)).value)[k - i])
  {
  }

  /** With an embedding service that always answers, the record of chunk
      `k` in the loop from `i` carries the embedding that its batch's call
      returned at the chunk's offset in that batch. */
  lemma {:induction false} ReliableValueAt(source: string, texts: seq<Chunk>, i: nat, embed: Embedder, k: nat)
    requires Reliable(embed)
    requires i <= k < |texts|
    ensures k - i < |Concat(UpsertsFrom(source, texts, i, embed).upserts)|
    ensures CarriesEmbedding(texts, embed, BatchStartOf(i, k), k - BatchStartOf(i, k),
                             Concat(UpsertsFrom(source, texts, i, embed).upserts)[k - i])
    decreases k - i
  {
    var batch := texts[i..MinNat(i + BatchSize, |texts|)];
    var head := BuildVectors(source, i, batch, embed(Contents(batch)).value);
    var rest := Concat(UpsertsFrom(source, texts, i + BatchSize, embed).upserts);
    var all := Concat(UpsertsFrom(source, texts, i, embed).upserts);
    ReliableStep(source, texts, i, embed);
    assert all == head + rest;
    ghost var b := BatchStartOf(i, k);
    if k < i + BatchSize {
      assert b == i;
      BatchValue(source, texts, i, embed, k);
      CarriesBefore(texts, embed, b, k - b, head, rest, all, k - i);
    } else {
      var q := k - (i + BatchSize);
      assert b == BatchStartOf(i + BatchSize, k);
      ReliableValueAt(source, texts, i + BatchSize, embed, k);
      assert |batch| == BatchSize by {
        assert MinNat(i + BatchSize, |texts|) == i + BatchSize;
      }
      assert |head| == BatchSize;
      CarriesAfter(texts, embed, b, k - b, head, rest, all, k - i, q);
    }
    CarriesSame(texts, embed, b, k - b, all[k - i], Concat(UpsertsFrom(source, texts, i, embed).upserts)[k - i]);
  }

  /** A record equal to one that carries an embedding carries the same
      embedding. */
  lemma CarriesSame(texts: seq<Chunk>, embed: Embedder, start: nat, offset: nat, v: Vector, w: Vector)
    requires v == w && CarriesEmbedding(texts, embed, start, offset, v)
    ensures CarriesEmbedding(texts, embed, start, offset, w)
  {
  }

  lemma CarriesBefore(texts: seq<Chunk>, embed: Embedder, start: nat, offset: nat, a: seq<Vector>, b: seq<Vector>, ab: seq<Vector>, p: nat)
    requires ab == a + b
    requires p < |a| && CarriesEmbedding(texts, embed, start, offset, a[p])
    ensures p < |ab| && CarriesEmbedding(texts, embed, start, offset, ab[p])
  {
    assert ab[p] == a[p];
  }

  lemma CarriesAfter(texts: seq<Chunk>, embed: Embedder, start: nat, offset: nat, a: seq<Vector>, b: seq<Vector>, ab: seq<Vector>, p: nat, q: nat)
    requires ab == a + b
    requires p == |a| + q && q < |b| && CarriesEmbedding(texts, embed, start, offset, b[q])
    ensures p < |ab| && CarriesEmbedding(texts, embed, start, offset, ab[p])
  {
    assert ab[p] == b[q];
  }

  /** With an embedding service that always answers, record `k` of a file
      carries the embedding at offset `k % 100` of the answer to its batch
      `texts[k // 100 * 100 : k // 100 * 100 + 100]`. */
  lemma ReliableEmbedderValues(filePath: string, texts: seq<Chunk>, embed: Embedder, k: nat)
    requires Reliable(embed)
    requires k < |texts|
    ensures k < |FileVectors(filePath, Ok(texts), embed)|
    ensures CarriesEmbedding(texts, embed, k / BatchSize * BatchSize, k % BatchSize,
                             FileVectors(filePath, Ok(texts), embed)[k])
  {
    var b := BatchStartOf(0, k);
    ReliableValueAt(Paths.Basename(filePath), texts, 0, embed, k);
    assert FileVectors(filePath, Ok(texts), embed) == Concat(UpsertsFrom(Paths.Basename(filePath), texts, 0, embed).upserts);
    BatchStartOfDiv(0, k);
    assert b == k / BatchSize * BatchSize;
    assert k - b == k % BatchSize;
  }

  /** With an embedding service that always answers one vector per text,
      `process_pdf` finishes and upserts exactly one vector per chunk, in
      chunk order: vector `k` has id `<basename>-chunk-<k>`, the chunk's text,
      the basename as source and the chunk's page (0 when absent). */
  lemma ReliableEmbedderCoversEveryChunk(filePath: string, texts: seq<Chunk>, embed: Embedder)
    requires Reliable(embed)
    ensures ProcessPdf(filePath, Ok(texts), embed).finished
    ensures var vs := FileVectors(filePath, Ok(texts), embed);
            && |vs| == |texts|
            && forall k :: 0 <= k < |texts| ==>
                 vs[k].id == VectorId(Paths.Basename(filePath), k)
                 && vs[k].metadata == Metadata(texts[k].pageContent, Paths.Basename(filePath), PageOf(texts[k]))
  {
    var source := Paths.Basename(filePath);
    ReliableFinishes(source, texts, 0, embed);
    UpsertedVectorsFrom(source, texts, 0, embed);
    ReliableIndicesFrom(texts, 0, embed);
    var vs := FileVectors(filePath, Ok(texts), embed);
    var ks := ChunkIndicesFrom(texts, 0, embed);
    forall k | 0 <= k < |texts|
      ensures vs[k].id == VectorId(source, k)
      ensures vs[k].metadata == Metadata(texts[k].pageContent, source, PageOf(texts[k]))
    {
      assert ks[k] == k;
      assert RecordOfChunk(source, texts, ks[k], vs[k]);
    }
  }

  // ---------------------------------------------------------------------
  // The vector store

  datatype IndexSpec = IndexSpec(dimension: nat, metric: string, cloud: string, region: string)

  /** A named index: its configuration and its records by id. */
  datatype VectorIndex = VectorIndex(spec: IndexSpec, vectors: map<string, Vector>)

  /** The indexes of the account, by name. */
  type Registry = map<string, VectorIndex>

  const FreshSpec := IndexSpec(Dimension, "cosine", "aws", "us-east-1")

  /** The remote call of `create_or_recreate_index` that raises, if any:
      listing the indexes, deleting the old one, or creating the new one. */
  datatype Fault = ListFails | DeleteFails | CreateFails

  datatype Setup = Setup(ok: bool, registry: Registry)

  /** `create_or_recreate_index`: drop `studyrag` if it exists, then create it
      empty with dimension 1536 and the cosine metric. */
  function CreateOrRecreateIndex(reg: Registry, fault: Option<Fault>): (r: Setup)
    ensures r.ok <==> fault.None? || (fault == Some(DeleteFails) && IndexName !in reg)
    ensures r.ok ==> IndexName in r.registry && r.registry[IndexName] == VectorIndex(FreshSpec, map[])
    ensures !r.ok && IndexName in r.registry ==> IndexName in reg && r.registry[IndexName] == reg[IndexName]
    ensures forall n :: n != IndexName ==> (n in r.registry <==> n in reg)
    ensures forall n :: n != IndexName && n in reg ==> r.registry[n] == reg[n]
    ensures fault == Some(ListFails) || (fault == Some(DeleteFails) && IndexName in reg) ==> r.registry == reg
    ensures fault == Some(CreateFails) ==> IndexName !in r.registry
  {
    var cleared := reg - {IndexName};
    match fault
    case Some(ListFails) => Setup(false, reg)
    case Some(DeleteFails) =>
      if IndexName in reg then Setup(false, reg)
      else Setup(true, cleared[IndexName := VectorIndex(FreshSpec, map[])])
    case Some(CreateFails) => Setup(false, cleared)
    case None => Setup(true, cleared[IndexName := VectorIndex(FreshSpec, map[])])
  }

  /** A successful recreation leaves the same registry whether or not the
      index existed before. */
  lemma RecreateForgetsOldIndex(reg: Registry, previous: VectorIndex)
    ensures CreateOrRecreateIndex(reg[IndexName := previous], None)
         == CreateOrRecreateIndex(reg - {IndexName}, None)
  {
    assert reg[IndexName := previous] - {IndexName} == (reg - {IndexName}) - {IndexName};
  }

  /** `index.upsert(vectors)`: each record replaces any earlier one with the
      same id. */
  function UpsertAll(m: map<string, Vector>, vs: seq<Vector>): (r: map<string, Vector>)
    ensures m.Keys <= r.Keys
    decreases |vs|
  {
    if |vs| == 0 then m else UpsertAll(m[vs[0].id := vs[0]], vs[1..])
  }

  function Ids(vs: seq<Vector>): set<string> {
    set v | v in vs :: v.id
  }

  /** After the upserts the index holds the old ids plus the new ones, and
      ids not upserted keep their records. */
  lemma {:induction false} UpsertAllKeys(m: map<string, Vector>, vs: seq<Vector>)
    ensures UpsertAll(m, vs).Keys == m.Keys + Ids(vs)
    ensures forall id :: id in m && id !in Ids(vs) ==> UpsertAll(m, vs)[id] == m[id]
    decreases |vs|
  {
    if |vs| > 0 {
      UpsertAllKeys(m[vs[0].id := vs[0]], vs[1..]);
      assert vs == [vs[0]] + vs[1..];
      assert Ids(vs) == {vs[0].id} + Ids(vs[1..]);
    }
  }

  /** With pairwise distinct ids, the first id does not recur later. */
  lemma DistinctIdsTail(vs: seq<Vector>)
    requires 0 < |vs| && DistinctIds(vs)
    ensures DistinctIds(vs[1..])
    ensures vs[0].id !in Ids(vs[1..])
  {
    forall p, q | 0 <= p < q < |vs[1..]|
      ensures vs[1..][p].id != vs[1..][q].id
    {
      assert vs[1..][p] == vs[p + 1] && vs[1..][q] == vs[q + 1];
    }
    forall v | v in vs[1..]
      ensures v.id != vs[0].id
    {
      var q :| 0 <= q < |vs[1..]| && vs[1..][q] == v;
      assert vs[q + 1] == v;
    }
  }

  /** When the upserted ids are pairwise distinct, each record can be found
      under its id afterwards. */
  lemma {:induction false} UpsertAllStores(m: map<string, Vector>, vs: seq<Vector>)
    requires DistinctIds(vs)
    ensures forall v :: v in vs ==> v.id in UpsertAll(m, vs) && UpsertAll(m, vs)[v.id] == v
    decreases |vs|
  {
    if |vs| > 0 {
      var m' := m[vs[0].id := vs[0]];
      DistinctIdsTail(vs);
      UpsertAllStores(m', vs[1..]);
      UpsertAllKeys(m', vs[1..]);
      assert vs == [vs[0]] + vs[1..];
    }
  }

  /** The per-batch upserts of one file, in order. */
  function UpsertBatches(m: map<string, Vector>, ups: seq<seq<Vector>>): (r: map<string, Vector>)
    ensures m.Keys <= r.Keys
    decreases |ups|
  {
    if |ups| == 0 then m else UpsertBatches(UpsertAll(m, ups[0]), ups[1..])
  }

  lemma {:induction false} UpsertAllAppend(m: map<string, Vector>, a: seq<Vector>, b: seq<Vector>)
    ensures UpsertAll(m, a + b) == UpsertAll(UpsertAll(m, a), b)
    decreases |a|
  {
    if |a| > 0 {
      assert (a + b)[1..] == a[1..] + b;
      UpsertAllAppend(m[a[0].id := a[0]], a[1..], b);
    } else {
      assert a + b == b;
    }
  }

  /** Upserting batch by batch has the effect of upserting their
      concatenation. */
  lemma {:induction false} UpsertBatchesFlat(m: map<string, Vector>, ups: seq<seq<Vector>>)
    ensures UpsertBatches(m, ups) == UpsertAll(m, Concat(ups))
    decreases |ups|
  {
    if |ups| > 0 {
      UpsertAllAppend(m, ups[0], Concat(ups[1..]));
      UpsertBatchesFlat(UpsertAll(m, ups[0]), ups[1..]);
    }
  }

  // ---------------------------------------------------------------------
  // load_pdfs_to_chroma

  /** The names `f.endswith('.pdf')` keeps, in listing order. */
  function PdfNames(names: seq<string>): (r: seq<string>)
    ensures forall x :: x in r <==> x in names && Text.EndsWith(x, PdfSuffix)
    decreases |names|
  {
    if |names| == 0 then []
    else (if Text.EndsWith(names[0], PdfSuffix) then [names[0]] else []) + PdfNames(names[1..])
  }

  /** Each `.pdf` name is kept as often as the listing holds it, and no
      other name is kept at all. */
  lemma {:induction false} PdfNamesMultiplicity(names: seq<string>, x: string)
    ensures multiset(PdfNames(names))[x] == if Text.EndsWith(x, PdfSuffix) then multiset(names)[x] else 0
    decreases |names|
  {
    if |names| > 0 {
      PdfNamesMultiplicity(names[1..], x);
      assert names == [names[0]] + names[1..];
    }
  }

  /** Filtering commutes with concatenation, so the kept names stay in
      listing order. */
  lemma {:induction false} PdfNamesAppend(a: seq<string>, b: seq<string>)
    ensures PdfNames(a + b) == PdfNames(a) + PdfNames(b)
    decreases |a|
  {
    if |a| > 0 {
      assert (a + b)[0] == a[0];
      assert (a + b)[1..] == a[1..] + b;
      PdfNamesAppend(a[1..], b);
    } else {
      assert a + b == b;
    }
  }

  /** `[os.path.join(dir, f) for f in os.listdir(dir) if f.endswith('.pdf')]`. */
  function PdfFiles(dir: string, names: seq<string>): (files: seq<string>)
    ensures |files| == |PdfNames(names)|
  {
    var kept := PdfNames(names);
    seq(|kept|, q requires 0 <= q < |kept| => Paths.Join(dir, kept[q]))
  }

  ghost predicate DistinctNames(names: seq<string>) {
    forall p, q :: 0 <= p < q < |names| ==> names[p] != names[q]
  }

  /** A listing without repeats gives each `.pdf` file exactly once, and its
      basename is the listed name. */
  lemma PdfFilesFromListing(dir: string, names: seq<string>)
    requires DistinctNames(names)
    requires forall n :: n in names ==> '/' !in n
    ensures DistinctNames(PdfNames(names))
    ensures forall q :: 0 <= q < |PdfFiles(dir, names)| ==>
              Paths.Basename(PdfFiles(dir, names)[q]) == PdfNames(names)[q]
  {
    var kept := PdfNames(names);
    PdfNamesDistinct(names);
    forall q | 0 <= q < |kept|
      ensures Paths.Basename(PdfFiles(dir, names)[q]) == kept[q]
    {
      assert kept[q] in names;
      Paths.BasenameOfJoin(dir, kept[q]);
    }
  }

  /** Every path handed to `process_pdf` is the directory joined with a
      listed name that ends in `.pdf`, in listing order. */
  lemma PdfFilesInDirectory(dir: string, names: seq<string>)
    ensures forall q :: 0 <= q < |PdfFiles(dir, names)| ==>
              && PdfFiles(dir, names)[q] == Paths.Join(dir, PdfNames(names)[q])
              && PdfNames(names)[q] in names
              && Text.EndsWith(PdfNames(names)[q], PdfSuffix)
  {
    var kept := PdfNames(names);
    forall q | 0 <= q < |kept|
      ensures kept[q] in names && Text.EndsWith(kept[q], PdfSuffix)
    {
      assert kept[q] in kept;
    }
  }

  lemma {:induction false} PdfNamesDistinct(names: seq<string>)
    requires DistinctNames(names)
    ensures DistinctNames(PdfNames(names))
    decreases |names|
  {
    if |names| > 0 {
      DistinctNamesTail(names);
      PdfNamesDistinct(names[1..]);
      var rest := PdfNames(names[1..]);
      if Text.EndsWith(names[0], PdfSuffix) {
        var kept := [names[0]] + rest;
        assert PdfNames(names) == kept;
        assert names[0] !in rest;
        forall p, q | 0 <= p < q < |kept|
          ensures kept[p] != kept[q]
        {
          assert kept[q] == rest[q - 1];
          if p > 0 {
            assert kept[p] == rest[p - 1];
          }
        }
      } else {
        assert PdfNames(names) == rest;
      }
    }
  }

  /** Every vector the files upsert, file after file. */
  function AllVectors(files: seq<string>, read: string -> Result<seq<Chunk>>, embed: Embedder): (vs: seq<Vector>)
    ensures (forall j :: 0 <= j < |files| ==> read(files[j]).Err?) ==> vs == []
    decreases |files|
  {
    if |files| == 0 then []
    else FileVectors(files[0], read(files[0]), embed) + AllVectors(files[1..], read, embed)
  }

  /** The loop `for file_path in pdf_files: process_pdf(...)`, applied to the
      records of the index. */
  function IngestFiles(
    m: map<string, Vector>,
    files: seq<string>,
    read: string -> Result<seq<Chunk>>,
    embed: Embedder): (r: map<string, Vector>)
    ensures m.Keys <= r.Keys
    decreases |files|
  {
    if |files| == 0 then m
    else
      var o := ProcessPdf(files[0], read(files[0]), embed);
      IngestFiles(UpsertBatches(m, o.upserts), files[1..], read, embed)
  }

  lemma {:induction false} IngestFilesFlat(
    m: map<string, Vector>,
    files: seq<string>,
    read: string -> Result<seq<Chunk>>,
    embed: Embedder)
    ensures IngestFiles(m, files, read, embed) == UpsertAll(m, AllVectors(files, read, embed))
    decreases |files|
  {
    if |files| > 0 {
      var o := ProcessPdf(files[0], read(files[0]), embed);
      UpsertBatchesFlat(m, o.upserts);
      UpsertAllAppend(m, Concat(o.upserts), AllVectors(files[1..], read, embed));
      IngestFilesFlat(UpsertAll(m, Concat(o.upserts)), files[1..], read, embed);
    }
  }

  function Basenames(files: seq<string>): (bs: seq<string>)
    ensures |bs| == |files|
    ensures forall q :: 0 <= q < |files| ==> bs[q] == Paths.Basename(files[q])
  {
    seq(|files|, q requires 0 <= q < |files| => Paths.Basename(files[q]))
  }

  lemma DistinctNamesTail(names: seq<string>)
    requires DistinctNames(names) && 0 < |names|
    ensures DistinctNames(names[1..])
    ensures names[0] !in names[1..]
  {
    forall p, q | 0 <= p < q < |names[1..]|
      ensures names[1..][p] != names[1..][q]
    {
      assert names[1..][p] == names[p + 1] && names[1..][q] == names[q + 1];
    }
    forall q | 0 <= q < |names[1..]|
      ensures names[1..][q] != names[0]
    {
      assert names[1..][q] == names[q + 1];
    }
  }

  /** Two vectors whose ids follow their sources and whose sources differ
      have different ids. */
  lemma DifferentSourcesDifferentIds(a: Vector, b: Vector)
    requires IdMatchesSource(a) && IdMatchesSource(b)
    requires a.metadata.source != b.metadata.source
    ensures a.id != b.id
  {
    var ka: nat :| a.id == VectorId(a.metadata.source, ka);
    var kb: nat :| b.id == VectorId(b.metadata.source, kb);
    VectorIdInjective(a.metadata.source, ka, b.metadata.source, kb);
  }

  /** Two id-distinct lists whose vectors come from different sources
      concatenate to an id-distinct list. */
  lemma DistinctIdsAppend(a: seq<Vector>, b: seq<Vector>, src: string, others: seq<string>)
    requires DistinctIds(a) && DistinctIds(b)
    requires forall p :: 0 <= p < |a| ==> IdMatchesSource(a[p]) && a[p].metadata.source == src
    requires forall q :: 0 <= q < |b| ==> IdMatchesSource(b[q]) && b[q].metadata.source in others
    requires src !in others
    ensures DistinctIds(a + b)
  {
    var ab := a + b;
    forall p, q | 0 <= p < q < |ab|
      ensures ab[p].id != ab[q].id
    {
      if q < |a| {
        assert ab[p] == a[p] && ab[q] == a[q];
      } else if p >= |a| {
        assert ab[p] == b[p - |a|] && ab[q] == b[q - |a|];
      } else {
        assert ab[p] == a[p] && ab[q] == b[q - |a|];
        DifferentSourcesDifferentIds(a[p], b[q - |a|]);
      }
    }
  }

  lemma BasenamesTail(files: seq<string>)
    requires 0 < |files|
    ensures Basenames(files) == [Basenames(files)[0]] + Basenames(files[1..])
  {
    var names, rest := Basenames(files), Basenames(files[1..]);
    forall q | 0 <= q < |rest|
      ensures rest[q] == names[q + 1]
    {
      assert files[1..][q] == files[q + 1];
    }
  }

  /** Vectors from `src`, followed by vectors from `others`, come from
      `[src] + others`. */
  lemma SourcesAppend(a: seq<Vector>, b: seq<Vector>, src: string, others: seq<string>)
    requires forall p :: 0 <= p < |a| ==> IdMatchesSource(a[p]) && a[p].metadata.source == src
    requires forall q :: 0 <= q < |b| ==> IdMatchesSource(b[q]) && b[q].metadata.source in others
    ensures forall p :: 0 <= p < |a + b| ==>
              IdMatchesSource((a + b)[p]) && (a + b)[p].metadata.source in [src] + others
  {
    forall p | 0 <= p < |a + b|
      ensures IdMatchesSource((a + b)[p]) && (a + b)[p].metadata.source in [src] + others
    {
      if p < |a| {
        assert (a + b)[p] == a[p];
      } else {
        assert (a + b)[p] == b[p - |a|];
      }
    }
  }

  /** Every vector the files produce has an id that follows its source, and
      that source is one of the files' basenames. */
  lemma {:induction false} AllVectorsSources(
    files: seq<string>,
    read: string -> Result<seq<Chunk>>,
    embed: Embedder)
    ensures forall p :: 0 <= p < |AllVectors(files, read, embed)| ==>
              IdMatchesSource(AllVectors(files, read, embed)[p])
              && AllVectors(files, read, embed)[p].metadata.source in Basenames(files)
    decreases |files|
  {
    if |files| > 0 {
      var names := Basenames(files);
      BasenamesTail(files);
      FileVectorsWellFormed(files[0], read(files[0]), embed);
      AllVectorsSources(files[1..], read, embed);
      SourcesAppend(FileVectors(files[0], read(files[0]), embed), AllVectors(files[1..], read, embed),
                    names[0], Basenames(files[1..]));
    }
  }

  /** Files with pairwise different basenames never produce the same id
      twice. */
  lemma {:induction false} AllVectorsDistinct(
    files: seq<string>,
    read: string -> Result<seq<Chunk>>,
    embed: Embedder)
    requires DistinctNames(Basenames(files))
    ensures DistinctIds(AllVectors(files, read, embed))
    decreases |files|
  {
    if |files| > 0 {
      var names := Basenames(files);
      BasenamesTail(files);
      assert Basenames(files[1..]) == names[1..];
      DistinctNamesTail(names);
      FileVectorsWellFormed(files[0], read(files[0]), embed);
      AllVectorsSources(files[1..], read, embed);
      AllVectorsDistinct(files[1..], read, embed);
      DistinctIdsAppend(FileVectors(files[0], read(files[0]), embed), AllVectors(files[1..], read, embed),
                        names[0], names[1..]);
    }
  }

  /** What a call of `load_pdfs_to_chroma` did: its return value (or the
      exception that escaped it), the indexes afterwards, and the files it
      handed to `process_pdf`, in order. */
  datatype Ingestion = Ingestion(result: Result<bool>, registry: Registry, processed: seq<string>)

  /** `load_pdfs_to_chroma(dir)`. `client` says whether creating the
      Pinecone client succeeded, `fault` which index call (if any) raises,
      `tools` is the message of the exception raised while connecting to
      the index or building the splitter and the embedding client, if one
      was (none of them is caught), `listing` is `os.listdir(dir)` (whose
      failure is not caught either), and `read` is what loading and
      splitting each file gives. */
  function LoadPdfs(
    dir: string,
    client: bool,
    reg: Registry,
    fault: Option<Fault>,
    tools: Option<string>,
    listing: Result<seq<string>>,
    read: string -> Result<seq<Chunk>>,
    embed: Embedder): (r: Ingestion)
    ensures r.result == Ok(false) <==> !client || !CreateOrRecreateIndex(reg, fault).ok
    ensures r.result.Err? <==> client && CreateOrRecreateIndex(reg, fault).ok && (tools.Some? || listing.Err?)
    ensures r.result == Ok(true) <==> client && CreateOrRecreateIndex(reg, fault).ok && tools.None? && listing.Ok?
    ensures r.result.Err? && tools.Some? ==> r.result.message == tools.value
    ensures r.result.Err? && tools.None? ==> r.result.message == listing.message
    ensures r.result == Ok(true) ==> r.processed == PdfFiles(dir, listing.value)
    ensures r.result != Ok(true) ==> r.processed == []
    ensures r.result == Ok(true) ==> IndexName in r.registry && r.registry[IndexName].spec == FreshSpec
    ensures !client ==> r.registry == reg
    ensures client && r.result != Ok(true) ==> r.registry == CreateOrRecreateIndex(reg, fault).registry
    ensures r.result == Ok(true) ==>
              forall n :: n != IndexName ==> (n in r.registry <==> n in reg) && (n in reg ==> r.registry[n] == reg[n])
  {
    if !client then Ingestion(Ok(false), reg, [])
    else
      var setup := CreateOrRecreateIndex(reg, fault);
      if !setup.ok then Ingestion(Ok(false), setup.registry, [])
      else if tools.Some? then Ingestion(Err(tools.value), setup.registry, [])
      else
        match listing
        case Err(msg) => Ingestion(Err(msg), setup.registry, [])
        case Ok(names) =>
          var files := PdfFiles(dir, names);
          var index := setup.registry[IndexName];
          var filled := index.(vectors := IngestFiles(index.vectors, files, read, embed));
          Ingestion(Ok(true), setup.registry[IndexName := filled], files)
  }

  /** The return value does not depend on what happens to the individual
      files: failures inside `process_pdf` never turn a success into a
      failure. */
  lemma ResultIgnoresFileErrors(
    dir: string,
    client: bool,
    reg: Registry,
    fault: Option<Fault>,
    tools: Option<string>,
    listing: Result<seq<string>>,
    read1: string -> Result<seq<Chunk>>,
    embed1: Embedder,
    read2: string -> Result<seq<Chunk>>,
    embed2: Embedder)
    ensures LoadPdfs(dir, client, reg, fault, tools, listing, read1, embed1).result
         == LoadPdfs(dir, client, reg, fault, tools, listing, read2, embed2).result
  {
  }

  /** After a successful run the rebuilt index holds exactly the vectors
      the `.pdf` files produced: its ids are theirs, and (listing names
      being distinct and free of `/`, as directory entries are) each vector
      is stored unaltered under its own id, none overwritten by another. */
  lemma IngestedIndexContents(
    dir: string,
    client: bool,
    reg: Registry,
    fault: Option<Fault>,
    tools: Option<string>,
    names: seq<string>,
    read: string -> Result<seq<Chunk>>,
    embed: Embedder)
    requires LoadPdfs(dir, client, reg, fault, tools, Ok(names), read, embed).result == Ok(true)
    ensures var r := LoadPdfs(dir, client, reg, fault, tools, Ok(names), read, embed);
            var all := AllVectors(PdfFiles(dir, names), read, embed);
            r.registry[IndexName].vectors.Keys == Ids(all)
    ensures var r := LoadPdfs(dir, client, reg, fault, tools, Ok(names), read, embed);
            var all := AllVectors(PdfFiles(dir, names), read, embed);
            DistinctNames(names) && (forall n :: n in names ==> '/' !in n) ==>
            forall v :: v in all ==> r.registry[IndexName].vectors[v.id] == v
  {
    var files := PdfFiles(dir, names);
    var all := AllVectors(files, read, embed);
    IngestFilesFlat(map[], files, read, embed);
    UpsertAllKeys(map[], all);
    if DistinctNames(names) && (forall n :: n in names ==> '/' !in n) {
      PdfFilesFromListing(dir, names);
      assert Basenames(files) == PdfNames(names);
      AllVectorsDistinct(files, read, embed);
      UpsertAllStores(map[], all);
    }
  }
}

=== FILE: rag_query.dfy ===
/** The question-answering path: retrieve the three most similar chunks,
    join their text into a context, wrap context and question in one of two
    instruction templates, and hand the prompt to the language model. Every
    failure along the way becomes an answer string beginning with
    "An error occurred: ". */
module RagQuery {
  import opened Common

  /** How many chunks a query retrieves (`similarity_search(query, k=3)`). */
  const TopK: nat := 3

  const NoInformation := "Sorry, I couldn't find any relevant information."
  const ErrorPrefix := "An error occurred: "

  /** The source indentation that the triple-quoted templates carry into
      every line after the first. */
  const Indent := "            "

  /** Where the two templates' first lines still agree; the next word
      ("both" or "ONLY") is where they part. */
  const Opening := "Answer the following question using "

  const GeneralKnowledgeHead :=
    Opening + "both" + " the provided context and your general knowledge. \n"
    + Indent + "If you use information outside the context, please indicate this clearly.\n"
    + Indent + "\n"
    + Indent + "Context: "

  const DocumentOnlyHead :=
    Opening + "ONLY" + " the information from the provided context. \n"
    + Indent + "If the context doesn't contain enough information to answer the question fully, please say so.\n"
    + Indent + "\n"
    + Indent + "Context: "

  /** What separates the context from the question in both templates. */
  const QuestionLead := "\n" + Indent + "\n" + Indent + "Question: "

  /** A retrieved chunk; only its text reaches the prompt. */
  datatype Doc = Doc(pageContent: string)

  /** The chat model's `predict`: the reply to a prompt, or the message of
      the exception it raised. */
  type Llm = string -> Result<string>

  /** The `k` best matches: the head of the store's similarity ranking,
      shorter only when the store holds fewer chunks. */
  function SimilaritySearch(ranking: seq<Doc>, k: nat): (docs: seq<Doc>)
    ensures |docs| == MinNat(k, |ranking|)
    ensures forall i :: 0 <= i < |docs| ==> docs[i] == ranking[i]
    ensures |docs| == 0 <==> |ranking| == 0 || k == 0
  {
    ranking[..MinNat(k, |ranking|)]
  }

  /** `"\n".join(xs)`. */
  function JoinLines(xs: seq<string>): (s: string)
    ensures |xs| == 1 ==> s == xs[0]
    decreases |xs|
  {
    if |xs| == 0 then ""
    else if |xs| == 1 then xs[0]
    else xs[0] + "\n" + JoinLines(xs[1..])
  }

  /** The position of the first newline in `s` at or after `i`, or `|s|`. */
  function LineEnd(s: string, i: nat): (j: nat)
    requires i <= |s|
    ensures i <= j <= |s|
    ensures forall k :: i <= k < j ==> s[k] != '\n'
    ensures j < |s| ==> s[j] == '\n'
    decreases |s| - i
  {
    if i == |s| || s[i] == '\n' then i else LineEnd(s, i + 1)
  }

  /** `s.split("\n")`: the pieces between newlines, always at least one. */
  function SplitLines(s: string): (lines: seq<string>)
    ensures 1 <= |lines|
    ensures forall i :: 0 <= i < |lines| ==> '\n' !in lines[i]
    decreases |s|
  {
    var j := LineEnd(s, 0);
    if j == |s| then [s] else [s[..j]] + SplitLines(s[j + 1..])
  }

  /** Splitting the joined context at newlines recovers the chunks, as long
      as there is at least one and none contains a newline itself. */
  lemma {:induction false} SplitJoinLines(xs: seq<string>)
    requires 1 <= |xs|
    requires forall i :: 0 <= i < |xs| ==> '\n' !in xs[i]
    ensures SplitLines(JoinLines(xs)) == xs
    decreases |xs|
  {
    var x := xs[0];
    var s := JoinLines(xs);
    var j := LineEnd(s, 0);
    if |xs| == 1 {
      assert s == x;
      assert forall k :: 0 <= k < |x| ==> x[k] in x;
      assert j == |s|;
    } else {
      var rest := JoinLines(xs[1..]);
      assert s == x + "\n" + rest;
      assert s[|x|] == '\n';
      assert forall k :: 0 <= k < |x| ==> x[k] in x;
      assert forall k :: 0 <= k < |x| ==> s[k] == x[k];
      assert j == |x|;
      assert s[..j] == x;
      assert s[j + 1..] == rest;
      SplitJoinLines(xs[1..]);
      assert xs == [x] + xs[1..];
    }
  }

  /** Where line `i` starts in `JoinLines(xs)`: every earlier line plus its
      newline. */
  function LineStart(xs: seq<string>, i: nat): nat
    requires i <= |xs|
    decreases i
  {
    if i == 0 then 0 else LineStart(xs, i - 1) + |xs[i - 1]| + 1
  }

  /** From the start of line `i` on, the joined text is the join of the
      lines from `i` on. */
  lemma {:induction false} JoinLinesSuffix(xs: seq<string>, i: nat)
    requires i < |xs|
    ensures LineStart(xs, i) <= |JoinLines(xs)|
    ensures JoinLines(xs)[LineStart(xs, i)..] == JoinLines(xs[i..])
    decreases i
  {
    if i == 0 {
      assert xs[0..] == xs;
    } else {
      var s := JoinLines(xs);
      var rest := JoinLines(xs[1..]);
      assert s == xs[0] + "\n" + rest;
      JoinLinesSuffix(xs[1..], i - 1);
      LineStartShift(xs, i);
      var a := LineStart(xs[1..], i - 1);
      assert s[|xs[0]| + 1 + a..] == rest[a..];
      assert xs[1..][i - 1..] == xs[i..];
    }
  }

  /** `text` occurs in `s` starting at position `at`. */
  predicate OccursAt(s: string, at: nat, text: string) {
    at + |text| <= |s| && s[at..at + |text|] == text
  }

  /** An occurrence inside an occurrence is an occurrence. */
  lemma OccursWithin(s: string, at: nat, t: string, a: nat, u: string, pos: nat)
    requires OccursAt(s, at, t) && OccursAt(t, a, u)
    requires pos == at + a
    ensures OccursAt(s, pos, u)
  {
    var v := s[pos..pos + |u|];
    forall k | 0 <= k < |u|
      ensures v[k] == u[k]
    {
      assert s[at..at + |t|][a + k] == t[a + k];
      assert t[a..a + |u|][k] == u[k];
    }
    assert v == u;
  }

  /** The first line opens the joined text. */
  lemma JoinLinesFirst(ys: seq<string>)
    requires 1 <= |ys|
    ensures OccursAt(JoinLines(ys), 0, ys[0])
  {
    if 1 < |ys| {
      assert JoinLines(ys) == ys[0] + "\n" + JoinLines(ys[1..]);
    }
  }

  /** Line `i` occurs in the joined text at its line start: each chunk
      appears verbatim, and in retrieval order. */
  lemma JoinLinesLine(xs: seq<string>, i: nat)
    requires i < |xs|
    ensures OccursAt(JoinLines(xs), LineStart(xs, i), xs[i])
  {
    var s := JoinLines(xs);
    var at := LineStart(xs, i);
    var ys := xs[i..];
    var t := JoinLines(ys);
    JoinLinesSuffix(xs, i);
    OccursAsSuffix(s, at, t);
    JoinLinesFirst(ys);
    assert ys[0] == xs[i];
    OccursWithin(s, at, t, 0, xs[i], at);
  }

  /** A suffix of `s` occurs where it starts. */
  lemma OccursAsSuffix(s: string, at: nat, t: string)
    requires at <= |s| && s[at..] == t
    ensures OccursAt(s, at, t)
  {
    assert s[at..at + |t|] == s[at..];
  }

  /** Every line but the last is followed by a newline. */
  lemma JoinLinesBreak(xs: seq<string>, i: nat)
    requires i + 1 < |xs|
    ensures LineStart(xs, i) + |xs[i]| < |JoinLines(xs)|
    ensures JoinLines(xs)[LineStart(xs, i) + |xs[i]|] == '\n'
  {
    var s := JoinLines(xs);
    var at := LineStart(xs, i);
    var t := JoinLines(xs[i..]);
    JoinLinesSuffix(xs, i);
    assert t == xs[i..][0] + "\n" + JoinLines(xs[i..][1..]);
    assert t[|xs[i]|] == '\n';
    assert s[at + |xs[i]|] == s[at..][|xs[i]|];
  }

  /** A character inside an occurrence is found at the shifted position. */
  lemma CharWithin(s: string, at: nat, t: string, a: nat)
    requires OccursAt(s, at, t) && a < |t|
    ensures at + a < |s| && s[at + a] == t[a]
  {
    assert s[at..at + |t|][a] == t[a];
  }

  /** Dropping the first line moves every later line start back by that
      line and its newline. */
  lemma {:induction false} LineStartShift(xs: seq<string>, i: nat)
    requires 1 <= i <= |xs|
    ensures LineStart(xs, i) == |xs[0]| + 1 + LineStart(xs[1..], i - 1)
    decreases i
  {
    if i > 1 {
      LineStartShift(xs, i - 1);
    }
  }

  /** The instruction text that precedes the context. */
  function Instructions(useGptKnowledge: bool): (head: string)
    ensures head == GeneralKnowledgeHead || head == DocumentOnlyHead
  {
    if useGptKnowledge then GeneralKnowledgeHead else DocumentOnlyHead
  }

  /** A template filled in: the instructions, the context, the question
      lead, the query. */
  function FillTemplate(head: string, context: string, query: string): (prompt: string)
    ensures |prompt| == |head| + |context| + |QuestionLead| + |query|
    ensures OccursAt(prompt, 0, head)
    ensures OccursAt(prompt, |head|, context)
    ensures OccursAt(prompt, |head| + |context|, QuestionLead)
    ensures OccursAt(prompt, |head| + |context| + |QuestionLead|, query)
    ensures OccursAt(prompt, |prompt| - |query|, query)
  {
    head + context + QuestionLead + query
  }

  /** The prompt for a mode: the template that mode selects, filled in. */
  function ComposePrompt(context: string, query: string, useGptKnowledge: bool): (prompt: string)
    ensures OccursAt(prompt, |Instructions(useGptKnowledge)| + |context| + |QuestionLead|, query)
  {
    FillTemplate(Instructions(useGptKnowledge), context, query)
  }

  /** The two templates differ within their shared length ("both the
      provided context" against "ONLY the information"), so neither is a
      prefix of the other. */
  lemma HeadsDiffer()
    ensures |Opening| < |GeneralKnowledgeHead| && |Opening| < |DocumentOnlyHead|
    ensures GeneralKnowledgeHead[|Opening|] == 'b' && DocumentOnlyHead[|Opening|] == 'O'
  {
    assert (Opening + "both")[|Opening|] == 'b';
    assert (Opening + "ONLY")[|Opening|] == 'O';
  }

  /** The mode can be read back from the prompt: it opens with the
      general-knowledge instructions exactly when `use_gpt_knowledge` is
      set, and with the document-only instructions exactly when it is not. */
  lemma PromptModeIff(context: string, query: string, useGptKnowledge: bool)
    ensures OccursAt(ComposePrompt(context, query, useGptKnowledge), 0, GeneralKnowledgeHead) <==> useGptKnowledge
    ensures OccursAt(ComposePrompt(context, query, useGptKnowledge), 0, DocumentOnlyHead) <==> !useGptKnowledge
  {
    var p := ComposePrompt(context, query, useGptKnowledge);
    var head := Instructions(useGptKnowledge);
    assert p[..|head|] == head;
    HeadsDiffer();
    assert p[|Opening|] == head[|Opening|];
  }

  /** `[doc.page_content for doc in docs]`. */
  function Contents(docs: seq<Doc>): (texts: seq<string>)
    ensures |texts| == |docs|
    ensures forall i :: 0 <= i < |docs| ==> texts[i] == docs[i].pageContent
  {
    seq(|docs|, i requires 0 <= i < |docs| => docs[i].pageContent)
  }

  /** The prompt the model would receive for a ranking. */
  function PromptFor(query: string, useGptKnowledge: bool, ranking: seq<Doc>): string {
    ComposePrompt(JoinLines(TopTexts(ranking)), query, useGptKnowledge)
  }

  /** `query_knowledge_base(query, use_gpt_knowledge=True)`. `search` is what
      building the clients and running the similarity search produced: the
      store's ranking of chunks, most similar first, or the message of the
      exception one of those steps raised. */
  function QueryKnowledgeBase(query: string, useGptKnowledge: bool := true, search: Result<seq<Doc>>, llm: Llm): (answer: string)
    ensures search.Err? ==> answer == ErrorPrefix + search.message
    ensures search.Ok? && |search.value| == 0 ==> answer == NoInformation
    ensures search.Ok? && 0 < |search.value| ==>
      var reply := llm(PromptFor(query, useGptKnowledge, search.value));
      answer == (if reply.Ok? then reply.value else ErrorPrefix + reply.message)
  {
    match search
    case Err(e) => ErrorPrefix + e
    case Ok(ranking) =>
      var docs := SimilaritySearch(ranking, TopK);
      if |docs| == 0 then NoInformation
      else
        match llm(ComposePrompt(JoinLines(Contents(docs)), query, useGptKnowledge))
        case Ok(reply) => reply
        case Err(e) => ErrorPrefix + e
  }

  /** With nothing retrieved the model is never consulted: any two models
      give the same fixed answer. */
  lemma NoDocumentsSkipsModel(query: string, useGptKnowledge: bool, llm1: Llm, llm2: Llm)
    ensures QueryKnowledgeBase(query, useGptKnowledge, Ok([]), llm1) == NoInformation
    ensures QueryKnowledgeBase(query, useGptKnowledge, Ok([]), llm1)
         == QueryKnowledgeBase(query, useGptKnowledge, Ok([]), llm2)
  {
  }

  /** The model is consulted on one prompt only: two models that agree on
      that prompt produce the same answer, whatever they do elsewhere. */
  lemma ModelSeesOnlyThePrompt(query: string, useGptKnowledge: bool, ranking: seq<Doc>, llm1: Llm, llm2: Llm)
    requires llm1(PromptFor(query, useGptKnowledge, ranking)) == llm2(PromptFor(query, useGptKnowledge, ranking))
    ensures QueryKnowledgeBase(query, useGptKnowledge, Ok(ranking), llm1)
         == QueryKnowledgeBase(query, useGptKnowledge, Ok(ranking), llm2)
  {
  }

  /** Chunks ranked below the third never influence the answer. */
  lemma OnlyTopChunksMatter(query: string, useGptKnowledge: bool, r1: seq<Doc>, r2: seq<Doc>, llm: Llm)
    requires |r1| >= TopK && |r2| >= TopK
    requires r1[..TopK] == r2[..TopK]
    ensures QueryKnowledgeBase(query, useGptKnowledge, Ok(r1), llm)
         == QueryKnowledgeBase(query, useGptKnowledge, Ok(r2), llm)
  {
    assert SimilaritySearch(r1, TopK) == SimilaritySearch(r2, TopK);
  }

  /** The texts of the top chunks of a ranking, in ranking order. */
  function TopTexts(ranking: seq<Doc>): (texts: seq<string>)
    ensures |texts| == MinNat(TopK, |ranking|)
    ensures forall i :: 0 <= i < |texts| ==> texts[i] == ranking[i].pageContent
  {
    Contents(SimilaritySearch(ranking, TopK))
  }

  /** What the model is asked: after the instructions (either template, or
      indeed any text), the text of each of the top chunks, verbatim and in
      ranking order. */
  lemma PromptCarriesChunk(head: string, query: string, ranking: seq<Doc>, i: nat)
    requires i < MinNat(TopK, |ranking|)
    ensures OccursAt(FillTemplate(head, JoinLines(TopTexts(ranking)), query),
                     |head| + LineStart(TopTexts(ranking), i), ranking[i].pageContent)
  {
    var texts := TopTexts(ranking);
    var p := FillTemplate(head, JoinLines(texts), query);
    JoinLinesLine(texts, i);
    OccursWithin(p, |head|, JoinLines(texts), LineStart(texts, i), texts[i], |head| + LineStart(texts, i));
  }

  /** In the prompt, a newline separates each top chunk from the next. */
  lemma PromptSeparatesChunks(head: string, query: string, ranking: seq<Doc>, i: nat)
    requires i + 1 < MinNat(TopK, |ranking|)
    ensures var p := FillTemplate(head, JoinLines(TopTexts(ranking)), query);
      var at := |head| + LineStart(TopTexts(ranking), i) + |ranking[i].pageContent|;
      at < |p| && p[at] == '\n'
  {
    var texts := TopTexts(ranking);
    var p := FillTemplate(head, JoinLines(texts), query);
    var a := LineStart(texts, i) + |texts[i]|;
    JoinLinesBreak(texts, i);
    CharWithin(p, |head|, JoinLines(texts), a);
  }

  /** Every failure is reported in-band: a failing search or model call
      yields an answer that begins with the error prefix and ends with the
      exception's message. */
  lemma FailuresBecomeAnswers(query: string, useGptKnowledge: bool, search: Result<seq<Doc>>, llm: Llm)
    requires search.Err? || (0 < |search.value| && llm(PromptFor(query, useGptKnowledge, search.value)).Err?)
    ensures var answer := QueryKnowledgeBase(query, useGptKnowledge, search, llm);
      var message := if search.Err? then search.message
                     else llm(PromptFor(query, useGptKnowledge, search.value)).message;
      OccursAt(answer, 0, ErrorPrefix) && answer[|ErrorPrefix|..] == message
  {
  }

  /** Because the answer is a plain string, a caller cannot tell the
      no-results fallback (or an error) from a model reply with the same
      text: a model that answers with the fallback sentence is
      indistinguishable from an empty store. */
  lemma AnswerIsAmbiguous(query: string, useGptKnowledge: bool, anyModel: Llm)
    ensures var parrot: Llm := _ => Ok(NoInformation);
      QueryKnowledgeBase(query, useGptKnowledge, Ok([Doc("notes")]), parrot)
      == QueryKnowledgeBase(query, useGptKnowledge, Ok([]), anyModel)
  {
  }

  /** A call that leaves out `use_gpt_knowledge` runs in general-knowledge
      mode: it is the call with the flag set, and the model's prompt opens
      with the instructions that allow outside knowledge. */
  lemma DefaultModeIsGeneralKnowledge(query: string, search: Result<seq<Doc>>, llm: Llm)
    ensures QueryKnowledgeBase(query, search := search, llm := llm) == QueryKnowledgeBase(query, true, search, llm)
    ensures search.Ok? && 0 < |search.value| ==>
              OccursAt(PromptFor(query, true, search.value), 0, GeneralKnowledgeHead)
  {
    if search.Ok? && 0 < |search.value| {
      PromptModeIff(JoinLines(TopTexts(search.value)), query, true);
    }
  }
}

=== FILE: text.dfy ===
/** Character-level helpers shared by the ingestion and query models:
    decimal rendering of naturals (Python's `str(n)` and f-string `{n}`),
    its inverse, and `str.endswith`. */
module Text {

  predicate IsDigit(c: char) {
    '0' <= c <= '9'
  }

  predicate AllDigits(s: string) {
    forall i :: 0 <= i < |s| ==> IsDigit(s[i])
  }

  function DigitChar(d: nat): (c: char)
    requires d < 10
    ensures IsDigit(c)
    ensures c as int - '0' as int == d
  {
    (('0' as int) + d) as char
  }

  function DigitValue(c: char): nat
    requires IsDigit(c)
  {
    c as int - '0' as int
  }

  /** The decimal digits of `n`, most significant first, without leading
      zeros: what Python writes for a non-negative int. */
  function NatToString(n: nat): (s: string)
    ensures 1 <= |s|
    ensures AllDigits(s)
    ensures |s| > 1 ==> s[0] != '0'
    decreases n
  {
    if n < 10 then [DigitChar(n)]
    else NatToString(n / 10) + [DigitChar(n % 10)]
  }

  /** The number a string of decimal digits denotes (Python's `int(s)` on
      digits only). */
  function DigitsValue(s: string): nat
    requires AllDigits(s)
    decreases |s|
  {
    if |s| == 0 then 0
    else DigitsValue(s[..|s| - 1]) * 10 + DigitValue(s[|s| - 1])
  }

  /** Reading back a rendered number gives the number. */
  lemma {:induction false} ParseRender(n: nat)
    ensures DigitsValue(NatToString(n)) == n
    decreases n
  {
    var s := NatToString(n);
    if n >= 10 {
      ParseRender(n / 10);
      assert s[..|s| - 1] == NatToString(n / 10);
    }
  }

  /** Distinct numbers render to distinct strings. */
  lemma RenderInjective(a: nat, b: nat)
    ensures NatToString(a) == NatToString(b) <==> a == b
  {
    if NatToString(a) == NatToString(b) {
      ParseRender(a);
      ParseRender(b);
    }
  }

  /** Python's `s.endswith(suffix)`. */
  predicate EndsWith(s: string, suffix: string)
    ensures EndsWith(s, suffix) ==> |suffix| <= |s| && s == s[..|s| - |suffix|] + suffix
  {
    |suffix| <= |s| && s[|s| - |suffix|..] == suffix
  }

  /** If `p1 + d1 == p2 + d2` where both `d`s are non-empty digit strings
      and both `p`s end in a non-digit, the split point is the same: the
      digit tail of the string is unique. */
  lemma DigitTailUnique(p1: string, d1: string, p2: string, d2: string)
    requires p1 + d1 == p2 + d2
    requires AllDigits(d1) && AllDigits(d2)
    requires 0 < |p1| && !IsDigit(p1[|p1| - 1])
    requires 0 < |p2| && !IsDigit(p2[|p2| - 1])
    ensures p1 == p2 && d1 == d2
  {
    var s := p1 + d1;
    assert forall k :: |p1| <= k < |s| ==> s[k] == d1[k - |p1|];
    assert forall k :: |p2| <= k < |s| ==> s[k] == d2[k - |p2|];
    // the last character of each prefix is the one non-digit in front of
    // a run of digits reaching the end, so neither prefix is longer
    assert s[|p1| - 1] == p1[|p1| - 1];
    assert s[|p2| - 1] == p2[|p2| - 1];
    assert |p1| == |p2|;
    assert p1 == s[..|p1|] == p2;
    assert d1 == s[|p1|..] == d2;
  }
}

=== FILE: user_profiles.dfy ===
/** Per-user progress tracking: the interaction log and the statistics
    record that `log_interaction` rewrites on every question, with the
    understanding score derived from question volume and topic diversity.
    The two JSON files of a profile are modelled as the values they hold. */
module UserProfiles {
  import opened Common

  /** The text of one `str(datetime.now())` reading; the clock itself is
      outside the model. */
  type Timestamp = string

  /** Progress on one topic. */
  datatype TopicStats = TopicStats(questionsAsked: nat, lastInteraction: Option<Timestamp>)

  /** The contents of `stats.json`. */
  datatype Stats = Stats(
    totalQuestions: nat,
    topics: map<string, TopicStats>,
    lastActive: Timestamp,
    understandingScore: real)

  /** One entry of `interactions.json`; the embedding of the question comes
      from a sentence-embedding model and is an opaque input here. */
  datatype Interaction = Interaction(
    timestamp: Timestamp,
    question: string,
    answer: string,
    contextUsed: string,
    topic: string,
    embedding: seq<real>)

  datatype Profile = Profile(username: string, interactions: seq<Interaction>, stats: Stats)

  /** The three clock readings one `log_interaction` call takes, in order:
      for the new log entry, for `last_active`, and for the topic's
      `last_interaction`. They need not be equal. */
  datatype Clock = Clock(entryTime: Timestamp, activeTime: Timestamp, topicTime: Timestamp)

  /** What `get_topic_progress` answers for a topic never asked about. */
  const UnseenTopic := TopicStats(0, None)

  // ---------------------------------------------------------------------
  // Understanding score

  /** `min(x, 1.0)`: a ratio capped at one. */
  function CapAtOne(x: real): (r: real)
    ensures r <= 1.0 && r <= x
    ensures r == x || r == 1.0
  {
    if x <= 1.0 then x else 1.0
  }

  /** The score from `_update_understanding_score`: 70 points for volume
      (full at 100 questions), 30 for diversity (full at 5 topics). */
  function UnderstandingScore(totalQuestions: nat, topicDiversity: nat): (score: real)
    ensures 0.0 <= score <= 100.0
    ensures score == 100.0 <==> totalQuestions >= 100 && topicDiversity >= 5
  {
    var baseScore := CapAtOne(totalQuestions as real / 100.0);
    var diversityBonus := CapAtOne(topicDiversity as real / 5.0);
    (baseScore * 0.7 + diversityBonus * 0.3) * 100.0
  }

  /** More questions or more topics never lower the score. */
  lemma ScoreMonotone(t1: nat, d1: nat, t2: nat, d2: nat)
    requires t1 <= t2 && d1 <= d2
    ensures UnderstandingScore(t1, d1) <= UnderstandingScore(t2, d2)
  {
    assert t1 as real / 100.0 <= t2 as real / 100.0;
    assert d1 as real / 5.0 <= d2 as real / 5.0;
  }

  /** The worked example: 50 questions over 3 topics score 53. */
  lemma ScoreExample()
    ensures UnderstandingScore(50, 3) == 53.0
  {
  }

  // ---------------------------------------------------------------------
  // Conservation: the total is the sum of the per-topic counts

  /** The sum of `questions_asked` over the topics in `keys`. */
  ghost function SumOver(topics: map<string, TopicStats>, keys: set<string>): nat
    requires keys <= topics.Keys
    decreases keys
  {
    if keys == {} then 0
    else
      var t :| t in keys;
      topics[t].questionsAsked + SumOver(topics, keys - {t})
  }

  /** The sum of `questions_asked` over all topics. */
  ghost function SumAsked(topics: map<string, TopicStats>): nat {
    SumOver(topics, topics.Keys)
  }

  /** The sum can be split at any topic, not only the one `SumOver`
      happens to pick. */
  lemma {:induction false} SumOverSplit(topics: map<string, TopicStats>, keys: set<string>, t: string)
    requires keys <= topics.Keys && t in keys
    ensures SumOver(topics, keys) == topics[t].questionsAsked + SumOver(topics, keys - {t})
    decreases keys
  {
    var u :| u in keys && SumOver(topics, keys) == topics[u].questionsAsked + SumOver(topics, keys - {u});
    if u != t {
      SumOverSplit(topics, keys - {u}, t);
      SumOverSplit(topics, keys - {t}, u);
      assert keys - {u} - {t} == keys - {t} - {u};
    }
  }

  /** The sum over `keys` only looks at the counts stored under `keys`. */
  lemma {:induction false} SumOverFrame(m1: map<string, TopicStats>, m2: map<string, TopicStats>, keys: set<string>)
    requires keys <= m1.Keys && keys <= m2.Keys
    requires forall k :: k in keys ==> m1[k].questionsAsked == m2[k].questionsAsked
    ensures SumOver(m1, keys) == SumOver(m2, keys)
    decreases keys
  {
    if keys != {} {
      var t :| t in keys;
      SumOverSplit(m1, keys, t);
      SumOverSplit(m2, keys, t);
      SumOverFrame(m1, m2, keys - {t});
    }
  }

  /** The invariant of a stats record: the total is the sum over topics and
      the score is the formula applied to the current values. */
  ghost predicate Valid(s: Stats) {
    && s.totalQuestions == SumAsked(s.topics)
    && s.understandingScore == UnderstandingScore(s.totalQuestions, |s.topics|)
  }

  // ---------------------------------------------------------------------
  // Operations

  /** The stats `_initialize_profile` writes for a new user. */
  function InitialStats(now: Timestamp): (s: Stats)
    ensures Valid(s)
    ensures s.totalQuestions == 0 && |s.topics| == 0 && s.understandingScore == 0.0
    ensures s.lastActive == now
  {
    Stats(0, map[], now, 0.0)
  }

  /** `_initialize_profile`: each file that already exists is kept as it is;
      a missing interaction log starts empty and missing stats start fresh. */
  function OpenProfile(
    username: string,
    storedInteractions: Option<seq<Interaction>>,
    storedStats: Option<Stats>,
    now: Timestamp): (p: Profile)
    ensures p.username == username
    ensures storedInteractions.Some? ==> p.interactions == storedInteractions.value
    ensures storedInteractions.None? ==> |p.interactions| == 0
    ensures storedStats.Some? ==> p.stats == storedStats.value
    ensures storedStats.None? ==> Valid(p.stats) && p.stats.totalQuestions == 0 && |p.stats.topics| == 0
    ensures storedStats.None? ==> p.stats.lastActive == now && p.stats.understandingScore == 0.0
  {
    var interactions := match storedInteractions case Some(log) => log case None => [];
    var stats := match storedStats case Some(s) => s case None => InitialStats(now);
    Profile(username, interactions, stats)
  }

  /** `get_topic_progress`: the stored entry, or a zero entry for a topic
      not yet asked about. */
  function TopicProgress(s: Stats, topic: string): (e: TopicStats)
    ensures topic in s.topics ==> e == s.topics[topic]
    ensures topic !in s.topics ==> e.questionsAsked == 0 && e.lastInteraction.None?
  {
    if topic in s.topics then s.topics[topic] else UnseenTopic
  }

  /** The stats half of `log_interaction`: one more question overall, one
      more on `topic` (which is added if new), fresh clock readings, and the
      score recomputed from the updated totals. */
  function RecordQuestion(s: Stats, topic: string, clock: Clock): (r: Stats)
    ensures r.totalQuestions == s.totalQuestions + 1
    ensures r.lastActive == clock.activeTime
    ensures r.topics.Keys == s.topics.Keys + {topic}
    ensures topic !in s.topics ==> r.topics[topic].questionsAsked == 1
    ensures topic in s.topics ==> r.topics[topic].questionsAsked == s.topics[topic].questionsAsked + 1
    ensures r.topics[topic].lastInteraction == Some(clock.topicTime)
    ensures forall t :: t in s.topics && t != topic ==> r.topics[t] == s.topics[t]
    ensures forall t :: t != topic ==> TopicProgress(r, t) == TopicProgress(s, t)
    ensures r.understandingScore == UnderstandingScore(r.totalQuestions, |r.topics|)
  {
    var entry := if topic in s.topics then s.topics[topic] else UnseenTopic;
    var entry' := TopicStats(entry.questionsAsked + 1, Some(clock.topicTime));
    var topics' := s.topics[topic := entry'];
    var total' := s.totalQuestions + 1;
    Stats(total', topics', clock.activeTime, UnderstandingScore(total', |topics'|))
  }

  /** `log_interaction`: append the new entry to the log and update the
      stats. */
  function LogInteraction(
    p: Profile,
    question: string,
    answer: string,
    contextUsed: string,
    topic: string,
    embedding: seq<real>,
    clock: Clock): (r: Profile)
    ensures r.username == p.username
    ensures |r.interactions| == |p.interactions| + 1
    ensures r.interactions[..|p.interactions|] == p.interactions
    ensures r.interactions[|p.interactions|]
         == Interaction(clock.entryTime, question, answer, contextUsed, topic, embedding)
    ensures r.stats == RecordQuestion(p.stats, topic, clock)
  {
    var entry := Interaction(clock.entryTime, question, answer, contextUsed, topic, embedding);
    Profile(p.username, p.interactions + [entry], RecordQuestion(p.stats, topic, clock))
  }

  /** A `log_interaction` call whose sentence-embedding step may raise.
      `encoded` is what `encode(question)` gave; it runs before either file
      is written, so when it raises the exception escapes and nothing is
      stored. */
  function LogInteractionCall(
    p: Profile,
    question: string,
    answer: string,
    contextUsed: string,
    topic: string,
    encoded: Result<seq<real>>,
    clock: Clock): (r: Result<Profile>)
    ensures r.Err? <==> encoded.Err?
    ensures r.Err? ==> r.message == encoded.message
    ensures r.Ok? ==> r.value.username == p.username
    ensures r.Ok? ==> |r.value.interactions| == |p.interactions| + 1
    ensures r.Ok? ==> r.value.interactions[..|p.interactions|] == p.interactions
    ensures r.Ok? ==> r.value.interactions[|p.interactions|]
                      == Interaction(clock.entryTime, question, answer, contextUsed, topic, encoded.value)
    ensures r.Ok? ==> r.value.stats == RecordQuestion(p.stats, topic, clock)
    ensures r.Ok? ==> r.value.stats.totalQuestions == p.stats.totalQuestions + 1
  {
    match encoded
    case Err(e) => Err(e)
    case Ok(embedding) => Ok(LogInteraction(p, question, answer, contextUsed, topic, embedding, clock))
  }

  /** The profile on disk after a call: the new one, or the old one when the
      call raised. */
  function StoredAfter(p: Profile, r: Result<Profile>): Profile {
    match r
    case Ok(q) => q
    case Err(_) => p
  }

  // ---------------------------------------------------------------------
  // Properties of a single update

  /** Storing an entry one higher than the old count of its topic (zero
      for a new topic) raises the sum by one. */
  lemma SumAskedBump(topics: map<string, TopicStats>, topic: string, entry: TopicStats)
    requires entry.questionsAsked == (if topic in topics then topics[topic].questionsAsked else 0) + 1
    ensures SumAsked(topics[topic := entry]) == SumAsked(topics) + 1
  {
    var m := topics[topic := entry];
    var others := topics.Keys - {topic};
    SumOverSplit(m, m.Keys, topic);
    assert m.Keys - {topic} == others;
    SumOverFrame(m, topics, others);
    if topic in topics {
      SumOverSplit(topics, topics.Keys, topic);
    } else {
      assert others == topics.Keys;
    }
  }

  /** Logging a question keeps the total equal to the sum of the per-topic
      counts. */
  lemma RecordQuestionConserves(s: Stats, topic: string, clock: Clock)
    requires s.totalQuestions == SumAsked(s.topics)
    ensures RecordQuestion(s, topic, clock).totalQuestions == SumAsked(RecordQuestion(s, topic, clock).topics)
  {
    var entry := if topic in s.topics then s.topics[topic] else UnseenTopic;
    SumAskedBump(s.topics, topic, TopicStats(entry.questionsAsked + 1, Some(clock.topicTime)));
  }

  /** Every update keeps the stats invariant. */
  lemma RecordQuestionValid(s: Stats, topic: string, clock: Clock)
    requires Valid(s)
    ensures Valid(RecordQuestion(s, topic, clock))
  {
    RecordQuestionConserves(s, topic, clock);
  }

  /** The understanding score of a valid record never goes down when a
      question is logged. */
  lemma ScoreNeverDecreases(s: Stats, topic: string, clock: Clock)
    requires Valid(s)
    ensures RecordQuestion(s, topic, clock).understandingScore >= s.understandingScore
  {
    var r := RecordQuestion(s, topic, clock);
    assert s.topics.Keys <= r.topics.Keys;
    SubsetCardinality(s.topics.Keys, r.topics.Keys);
    ScoreMonotone(s.totalQuestions, |s.topics|, r.totalQuestions, |r.topics|);
  }

  lemma SubsetCardinality<T>(a: set<T>, b: set<T>)
    requires a <= b
    ensures |a| <= |b|
  {
    assert b == a + (b - a);
  }

  /** Asking about a topic raises its `get_topic_progress` count by exactly
      one, whether or not it was seen before. */
  lemma TopicProgressAfterLog(s: Stats, topic: string, clock: Clock)
    ensures TopicProgress(RecordQuestion(s, topic, clock), topic).questionsAsked
         == TopicProgress(s, topic).questionsAsked + 1
  {
  }

  // ---------------------------------------------------------------------
  // The stats agree with the interaction log

  /** How many logged interactions were about `topic`. */
  function CountTopic(log: seq<Interaction>, topic: string): (n: nat)
    ensures n <= |log|
    decreases |log|
  {
    if |log| == 0 then 0
    else CountTopic(log[..|log| - 1], topic) + (if log[|log| - 1].topic == topic then 1 else 0)
  }

  /** A profile whose stats are exactly what its log implies: the stats
      invariant, one question per entry, a topic entry exactly for each
      topic in the log with that topic's count, and a recorded time for
      every topic. */
  ghost predicate Consistent(p: Profile) {
    && Valid(p.stats)
    && p.stats.totalQuestions == |p.interactions|
    && TopicsMatchLog(p.stats.topics, p.interactions)
  }

  /** The topic map has an entry exactly for each topic in the log, holding
      that topic's count and a recorded time. */
  ghost predicate TopicsMatchLog(topics: map<string, TopicStats>, log: seq<Interaction>) {
    && (forall t :: t in topics <==> CountTopic(log, t) > 0)
    && (forall t :: t in topics ==>
          topics[t].questionsAsked == CountTopic(log, t) && topics[t].lastInteraction.Some?)
  }

  /** A profile created from scratch is consistent. */
  lemma FreshProfileConsistent(username: string, now: Timestamp)
    ensures Consistent(OpenProfile(username, None, None, now))
  {
  }

  /** Appending an entry adds one to the count of its topic only. */
  lemma CountTopicAppend(log: seq<Interaction>, e: Interaction, t: string)
    ensures CountTopic(log + [e], t) == CountTopic(log, t) + (if e.topic == t then 1 else 0)
  {
    assert (log + [e])[..|log|] == log;
  }

  /** Recording the question of a new log entry keeps the topic map in
      step with the log. */
  lemma RecordQuestionMatchesLog(s: Stats, log: seq<Interaction>, e: Interaction, clock: Clock)
    requires TopicsMatchLog(s.topics, log)
    ensures TopicsMatchLog(RecordQuestion(s, e.topic, clock).topics, log + [e])
  {
    forall t
      ensures CountTopic(log + [e], t) == CountTopic(log, t) + (if t == e.topic then 1 else 0)
    {
      CountTopicAppend(log, e, t);
    }
  }

  /** Logging keeps a consistent profile consistent. */
  lemma LogInteractionConsistent(
    p: Profile,
    question: string,
    answer: string,
    contextUsed: string,
    topic: string,
    embedding: seq<real>,
    clock: Clock)
    requires Consistent(p)
    ensures Consistent(LogInteraction(p, question, answer, contextUsed, topic, embedding, clock))
  {
    var e := Interaction(clock.entryTime, question, answer, contextUsed, topic, embedding);
    assert LogInteraction(p, question, answer, contextUsed, topic, embedding, clock).interactions
        == p.interactions + [e];
    RecordQuestionValid(p.stats, topic, clock);
    RecordQuestionMatchesLog(p.stats, p.interactions, e, clock);
  }

  /** Whether or not the embedding step raises, the profile on disk after
      the call is consistent, and a failed call leaves it exactly as it was. */
  lemma LogInteractionCallConsistent(
    p: Profile,
    question: string,
    answer: string,
    contextUsed: string,
    topic: string,
    encoded: Result<seq<real>>,
    clock: Clock)
    requires Consistent(p)
    ensures Consistent(StoredAfter(p, LogInteractionCall(p, question, answer, contextUsed, topic, encoded, clock)))
    ensures encoded.Err? ==> StoredAfter(p, LogInteractionCall(p, question, answer, contextUsed, topic, encoded, clock)) == p
  {
    if encoded.Ok? {
      LogInteractionConsistent(p, question, answer, contextUsed, topic, encoded.value, clock);
    }
  }

  /** In a consistent profile `get_topic_progress` answers, for every topic
      including unseen ones, the number of logged questions on it. */
  lemma TopicProgressCountsLog(p: Profile, topic: string)
    requires Consistent(p)
    ensures TopicProgress(p.stats, topic).questionsAsked == CountTopic(p.interactions, topic)
  {
  }

  /** One call of `log_interaction`, with the values it is given or reads. */
  datatype Event = Event(
    question: string,
    answer: string,
    contextUsed: string,
    topic: string,
    embedding: seq<real>,
    clock: Clock)

  /** A sequence of `log_interaction` calls, in order. */
  function Replay(p: Profile, events: seq<Event>): (r: Profile)
    ensures r.username == p.username
    ensures |r.interactions| == |p.interactions| + |events|
    ensures r.stats.totalQuestions == p.stats.totalQuestions + |events|
    decreases |events|
  {
    if |events| == 0 then p
    else
      var e := events[0];
      Replay(LogInteraction(p, e.question, e.answer, e.contextUsed, e.topic, e.embedding, e.clock), events[1..])
  }

  /** From any profile whose stats agree with its log (a fresh one among
      them), any history of questions keeps the stats consistent with the
      log: the total equals the sum over topics and the
      number of entries, and the score lies in [0, 100] and is the formula. */
  lemma {:induction false} ReplayConsistent(p: Profile, events: seq<Event>)
    requires Consistent(p)
    ensures Consistent(Replay(p, events))
    ensures 0.0 <= Replay(p, events).stats.understandingScore <= 100.0
    decreases |events|
  {
    if |events| > 0 {
      var e := events[0];
      var q := LogInteraction(p, e.question, e.answer, e.contextUsed, e.topic, e.embedding, e.clock);
      LogInteractionConsistent(p, e.question, e.answer, e.contextUsed, e.topic, e.embedding, e.clock);
      ReplayConsistent(q, events[1..]);
    }
  }

  /** Over any history the score never goes down. */
  lemma {:induction false} ReplayScoreMonotone(p: Profile, events: seq<Event>)
    requires Valid(p.stats)
    ensures Replay(p, events).stats.understandingScore >= p.stats.understandingScore
    decreases |events|
  {
    if |events| > 0 {
      var e := events[0];
      var q := LogInteraction(p, e.question, e.answer, e.contextUsed, e.topic, e.embedding, e.clock);
      ScoreNeverDecreases(p.stats, e.topic, e.clock);
      RecordQuestionValid(p.stats, e.topic, e.clock);
      ReplayScoreMonotone(q, events[1..]);
    }
  }
}
